=== FILE: README.md ===
# Vocabulary drill: a Dafny model of the core of `app.js`

`app.js` is a single-page vocabulary trainer. It keeps a list of English words,
each with its Chinese meanings, a proficiency score (new words start at -100)
and practice counters, in `localStorage`. A drill session repeatedly draws one of
the twenty weakest words, checks every keystroke against its spelling, and
scores each submitted answer. After five consecutive wrong answers it shows the
answer. Words enter the list through a one-word form or a bulk import of
`word meaning1,meaning2` lines. In both, a spelling that is already stored is
not duplicated. The import resets the stored record to proficiency -100 with
the new meanings; the form does so only once the learner confirms, and
otherwise changes nothing.

The model has six modules:

- `Text` (`text.dfy`) covers the JavaScript string built-ins the core relies
  on: `trim` with the ECMAScript white-space set, `toLowerCase`, `split` on
  one-character separators, `join` and `indexOf`.
- `Vocab` (`vocab.dfy`) holds the stored record, its statistics and the
  `{...w, ...updates}` merge.
- `Storage` (`storage.dfy`) models the `Storage` class: add, update, delete,
  lookup by id, and the lowest-proficiency query, including its sort.
- `Practice` (`practice.dfy`) models the `PracticeManager` class: the next
  word, input validation, submitting an answer, and the mode switches.
- `Ui` (`ui.dfy`) models the decisions of the `UIController` handlers:
  - `handleInput`, with its one-penalty-per-mistake latch;
  - `handleSubmit`, with the reveal after five errors;
  - the add-word form;
  - the statistics totals.
- `BulkImport` (`import.dfy`) models `UIController.bulkImport`: line parsing,
  the per-line fold over the list, the numbered error list and the closing
  counts.

Each operation is a pure function from the stored list and the session to the
new list, the new session and what the handler leaves for a timer to do. The
outside world becomes parameters:

- the two `Math.random()` draws are the indices they produce;
- `Date.now()` and `new Date().toISOString()` are an id and a timestamp. The
  bulk import takes a clock instead, a function from the line's position among
  the non-blank lines to the id and timestamp that line would read;
- the answer to `confirm` is a boolean.

Two behaviours of the handlers are modelled as the code has them. The
keystroke penalty in `handleInput` commits `practiceCount` and `errorCount` at
once, on each first mistake (app.js:390-400). Only `handleSubmit` checks the
reveal threshold (app.js:430-434), so a run of keystroke penalties can pass
five consecutive errors without revealing anything.

## Model

| member | source | states |
|---|---|---|
| Text.Trim | app.js:489-490 | `trim` gives a string with no white space at either end, never longer than the input |
| Text.TrimIsSlice | app.js:552 | the trimmed string is a contiguous slice of the input, and only white space lies outside it |
| Text.TrimIdempotent | app.js:563-564 | trimming an already trimmed string changes nothing |
| Text.TrimEmptyIffBlank | app.js:420 | `!s.trim()` holds exactly when `s` consists only of white space |
| Text.ToLower | app.js:119-120 | lower-casing keeps the length, changes a character exactly when it is an ASCII capital, turns each capital into the letter at the same place in the lower-case alphabet, keeps white space as white space, and leaves no capital |
| Text.ToLowerIdempotent | app.js:505 | lower-casing twice is lower-casing once |
| Text.LowerTrimCommute | app.js:21 | `toLowerCase().trim()` and `trim().toLowerCase()` agree, so the stored spelling and the compared input are normalised alike |
| Text.Split | app.js:573 | a split has at least one piece, and no piece contains a separator |
| Text.JoinSplit | app.js:542 | joining the pieces of a split on one separator gives back the input |
| Text.JoinSplitUnify | app.js:497 | splitting on both commas, `/[,，]/`, and joining back with one of them gives the input with every comma replaced by that one, so every character outside the separators lands in a piece, in order, whichever comma separates them |
| Text.SplitJoin | app.js:573 | splitting a join of separator-free pieces gives back the pieces |
| Text.IndexOf | app.js:556 | `indexOf` is -1 exactly when the character is absent; otherwise it is the first position holding it |
| Vocab.Merge | app.js:42 | `{...w, ...updates}`: every property the update carries replaces the stored one, and every other property keeps its stored value |
| Vocab.MergeWhole | app.js:42 | merging a whole record as the update yields exactly that record, whatever was stored |
| Storage.TrimAll | app.js:22 | each meaning is replaced by its trim, in order, and none is dropped |
| Storage.AddWord | app.js:17-35 | the new record is appended last. Its spelling has no capitals and no white space at either end. It has the trimmed meanings, proficiency -100, zeroed counters, no practice time, and the given id and time |
| Storage.AddWordSpelling | app.js:21 | the stored spelling is exactly the trimmed input spelling, lower-cased |
| Storage.FindIndex | app.js:40 | `findIndex` is the first position holding the id, or none exactly when no record has it |
| Storage.FindIndexUnique | app.js:40 | with unique ids, looking up a record's id finds that very record |
| Storage.GetWordById | app.js:57-60 | `find` returns a stored record with that id, the first one, and is undefined exactly when no record has the id |
| Storage.UpdateWord | app.js:38-47 | only the first record with the id becomes the merge of itself and the update. Every other position is unchanged and the length is kept. An absent id changes nothing and returns null |
| Storage.DeleteWord | app.js:50-54 | deleting never lengthens the list; which records survive is stated by `DeleteMembers` and their order by `DeleteConcat` |
| Storage.DeleteMembers | app.js:50-54 | a record survives a delete exactly when its id differs from the deleted one |
| Storage.DeleteAbsent | app.js:52 | deleting an id that no record has leaves the list unchanged |
| Storage.DeleteConcat | app.js:52 | the filter works element by element: deleting from a concatenation concatenates the deletions, so survivors keep their order |
| Storage.DeleteThenLookup | app.js:50-60 | after a delete, looking up the deleted id finds nothing |
| Storage.SortByProficiency | app.js:66 | the comparator sort returns a permutation of the list, ascending by proficiency |
| Storage.SortStable | app.js:66 | the sort is stable: records of equal proficiency keep their original relative order |
| Storage.SliceEnd | app.js:67 | `slice(0, n)` ends at `n` clamped to the length, counting from the end when `n` is negative |
| Storage.GetLowestProficiencyWords | app.js:63-68 | the result holds `min(n, length)` records taken from the list, sorted ascending. No record left out is weaker than any record taken |
| Storage.AddKeepsConsistent | app.js:25-32 | adding a word keeps `practiceCount == correctCount + errorCount` on every record |
| Storage.UpdateKeepsConsistent | app.js:38-47 | an update with balanced counters keeps the invariant on every record |
| Storage.DeleteKeepsConsistent | app.js:50-54 | deleting keeps the invariant on every record |
| Practice.NewSession | app.js:73-83 | a new manager has no current word or mode, zero errors, the latch open, and both modes enabled |
| Practice.AvailableModes | app.js:95-97 | a mode is offered exactly when it is enabled, and only enabled modes are offered |
| Practice.WithFallback | app.js:99-102 | with neither mode enabled, audio is switched back on, so that at least one mode is always offered; otherwise the modes are unchanged |
| Practice.GetNextWord | app.js:86-115 | null exactly when the list is empty. Otherwise the word is one of the 20 weakest and the mode is one the session now offers, and the session restarts with zero errors, empty input and the latch open |
| Practice.NextModeHonoursSwitches | app.js:95-105 | the drawn mode's switches are the learner's own when at least one is on. With both off, audio alone is switched on and drawn |
| Practice.NextWordIsWeak | app.js:87-92 | the drawn word is a stored word, and no stored word outside the pool is weaker than it |
| Practice.Typed | app.js:119 | the compared input has no white space at either end and is no longer than what was typed |
| Practice.TypedLowerTrim | app.js:119 | the compared input is exactly the trim of what was typed, lower-cased |
| Practice.ValidateInput | app.js:118-146 | complete exactly when the typed text equals the lower-cased target; on track exactly when it is a prefix of the target; otherwise misspelt, with the matching feedback |
| Practice.BlankInputIsOnTrack | app.js:132 | blank input is never reported as wrong, because the empty string is a prefix of every target |
| Practice.Score | app.js:155-167 | scoring adds one practice, moves proficiency and the matching counter by one, stamps the time, and touches nothing else |
| Practice.SubmitAnswer | app.js:149-177 | only the first stored record carrying the current word's id is scored and saved; that is the current word's own record when ids are unique. The error count resets on a correct answer and grows on a wrong one. The answer is to be shown exactly from the fifth consecutive error on. A record that is no longer stored aborts the call |
| Practice.SubmitKeepsConsistent | app.js:155-169 | scoring keeps `practiceCount == correctCount + errorCount` on every record |
| Practice.ResetErrors | app.js:180-182 | the consecutive-error count becomes zero, and nothing else changes |
| Practice.SetEnabledModes | app.js:185-188 | the offered modes follow the two switches, and nothing else changes |
| Ui.Penalise | app.js:390-400 | a misspelling costs the first stored record carrying the current word's id (the current word's own record when ids are unique) one erroneous practice (proficiency -1, one more error and practice) and the session one more consecutive error. It closes the latch. A missing record aborts the handler |
| Ui.HandleInput | app.js:371-415 | a complete word schedules a submit, and a word still on track changes nothing. A misspelling is penalised only while the latch is open, then schedules the clearing |
| Ui.ReleaseLatch | app.js:408-413 | the clearing timer opens the latch and changes nothing else |
| Ui.WrongInputIsNonEmpty | app.js:385 | the `input.length > 0` test never decides anything, because a wrong input is never empty |
| Ui.LatchPenalisesOnce | app.js:389-400 | a second wrong keystroke before the latch is released changes neither the list nor the session, so one mistake costs exactly one penalty |
| Ui.PenaliseKeepsConsistent | app.js:393-398 | a penalty keeps `practiceCount == correctCount + errorCount` on every record |
| Ui.InputKeepsConsistent | app.js:371-415 | every keystroke keeps the counter invariant |
| Ui.HandleSubmit | app.js:418-441 | blank input does nothing, with or without a current word. Otherwise the first stored record carrying the current word's id (the current word's own record when ids are unique) is scored once. A correct answer moves on to the next word. A wrong answer at the fifth consecutive error reveals the answer and clears the count; a wrong answer below that asks for a retry |
| Ui.RevealAfterFifthError | app.js:430-434 | at four consecutive errors, a wrong answer shows the answer, leaves the count at zero, and commits exactly one practice and one error |
| Ui.SubmitStepKeepsConsistent | app.js:418-441 | a submission keeps the counter invariant |
| Ui.NonBlank | app.js:497 | the filter never lengthens the list of pieces; which pieces are kept is stated by `NonBlankMembers` and their order by `NonBlankAppend` |
| Ui.NonBlankMembers | app.js:497 | `filter(m => m.trim())` keeps a piece exactly when it is in the input and is not blank |
| Ui.NonBlankAppend | app.js:497 | the filter works piece by piece: filtering a concatenation concatenates the filtered halves, so kept pieces stay in order |
| Ui.FindSpelling | app.js:505 | `find` returns the first record whose spelling matches ignoring case: it matches and no earlier record does. There is none exactly when no record matches |
| Ui.Reset | app.js:510-512 | saving the reset by id writes the duplicate, with proficiency -100 and the new meanings, over the first record carrying its id. That is the duplicate itself when ids are unique, and no other record changes |
| Ui.ResetInPlace | app.js:510-512 | with unique ids, the reset gives the duplicate proficiency -100 and the new meanings, keeps everything else, and touches no other record |
| Ui.ReadForm | app.js:489-501 | the form is incomplete exactly when either field is blank after trimming. A filled form has a non-empty trimmed word and at least one non-blank meaning |
| Ui.AddWordWith | app.js:485-530 | the list grows by exactly one record when one is created, and otherwise keeps its length |
| Ui.AddWordOutcome | app.js:489-521 | a blank field alerts and changes nothing; so does a meaning list with no non-blank piece. A spelling no record has, ignoring case, is created. A stored spelling is reset exactly when confirmed and otherwise declined. Only a creation or a reset changes the list |
| Ui.AddWordCreates | app.js:523 | a created record is appended after all the others, with the given id and time, the trimmed spelling lower-cased, the trimmed meanings, proficiency -100 and zeroed counters |
| Ui.AddWordResets | app.js:503-512 | a confirmed reset keeps the length. With unique ids it gives the first record spelled like the field proficiency -100 and the new meanings, and touches nothing else |
| Ui.AddWordForm | app.js:485-530 | as written, the form never creates a record for a spelling already stored, and a confirmed reset stores the non-blank pieces as split, untrimmed |
| Ui.AddWordNoDuplicate | app.js:503-521 | the form never adds a record for a spelling already stored, whatever the letter case |
| Ui.AddWordUpsertKeepsHistory | app.js:507-512 | with unique ids, a confirmed reset keeps the duplicate's id, spelling and statistics, sets proficiency -100 and the new meanings, and leaves every other record alone |
| Ui.AddWordResetKeepsPadding | app.js:497-512 | as written, `"red, fruit"` is stored as `["red", " fruit"]` on a duplicate but as `["red", "fruit"]` on a new word |
| Ui.AddWordFormTrimmed | app.js:485-530 | with the fix, the form never creates a record for a spelling already stored, and with unique ids a confirmed reset stores the trims of the non-blank pieces |
| Ui.AddWordTrimmedMeanings | app.js:497-523 | with the fix and unique ids, every meaning the form stores is trimmed, on both the reset and the create path |
| Ui.UpdateStats | app.js:677-690 | the displayed word count is the length of the list |
| Ui.TotalsBalance | app.js:684-688 | when every record keeps its counter invariant, the displayed totals satisfy practice = correct + error |
| Ui.TotalsAfterReplace | app.js:684-688 | replacing one record moves each total by exactly that record's difference |
| Ui.SubmitAddsOnePractice | app.js:155-169 | every scored submission adds exactly one to the displayed practice total |
| BulkImport.NonEmptyMembers | app.js:573 | `filter(m => m)` keeps a piece exactly when it is in the input and is not empty |
| BulkImport.NonEmptyAppend | app.js:573 | the filter works piece by piece, so kept pieces stay in order |
| BulkImport.NonEmptyKeepsAll | app.js:573 | a list without empty pieces passes the filter whole |
| BulkImport.NonEmptyTrimmed | app.js:573 | trimmed pieces stay trimmed through the filter |
| BulkImport.Meanings | app.js:573 | every meaning of a line is non-empty and has no white space at either end; which they are is stated by `MeaningsMembers` |
| BulkImport.MeaningsMembers | app.js:573 | every piece between commas that is not blank gives its trim as a meaning, and every meaning is the trim of such a piece |
| BulkImport.ParseLine | app.js:552-578 | a line is skipped exactly when blank. It is rejected for a missing space exactly when its trim has no space. An accepted word is non-empty, trimmed and has no space, and its meanings are non-empty and trimmed |
| BulkImport.ParseLineDecides | app.js:556-578 | a line whose trim holds a space is accepted exactly when the text after the first space has a meaning, and is otherwise rejected for having no valid meaning. An accepted line's word is the trim of what precedes that space, and its meanings are those of what follows |
| BulkImport.NeverEmptyPart | app.js:563-570 | the "word or meaning empty" rejection can never happen, because a trimmed line has text on both sides of its first space |
| BulkImport.ParseFormat | app.js:552-578 | a record written as `word meaning1,meaning2` parses back to the same word and meanings |
| BulkImport.Accept | app.js:580-601 | accepting a line never adds an error or a failure, counts at most one success, and never shortens the list |
| BulkImport.ImportLine | app.js:551-601 | a rejected line adds one failure and one numbered error naming its reason. A skipped or rejected line leaves the list and the known spellings alone |
| BulkImport.Run | app.js:551-602 | over all lines the list only grows and the error list only gets longer. Failures and errors stay in step, and no more lines are counted than there are |
| BulkImport.NewSpellingAdded | app.js:593-597 | an unknown spelling appends the record `Storage.addWord` builds, remembers the spelling and counts one success |
| BulkImport.KnownSpellingLookedUp | app.js:581-590 | a known spelling counts a success exactly when the lookup finds a record. That record gets proficiency -100 and the line's meanings and keeps its id, spelling, creation time and statistics; no other record changes. As written this holds when the records the import started from have unique ids |
| BulkImport.ParseAll | app.js:551-553 | there is one parse per line; `ParseAllAt` states that each is the parse of its own line |
| BulkImport.ParseAllAt | app.js:551-553 | the lines are taken one at a time, in order: the parse at each position is the parse of the line at that position |
| BulkImport.ErrorsNameTheirLines | app.js:557-577 | there are as many errors as failures. Each names a line, numbered from 1 among the non-blank lines, and the reason that line was rejected, in line order |
| BulkImport.ImportKeepsConsistent | app.js:551-602 | every record keeps `practiceCount == correctCount + errorCount` through the import |
| BulkImport.RunGood | app.js:551-602 | the records present before the import keep their place, id, spelling, creation time and statistics. The known spellings are those of the list, and no record added repeats a spelling |
| BulkImport.ImportLineCounts | app.js:551-601 | with the lookup in the current list, each non-blank line counts exactly once, as a success or a failure |
| BulkImport.RunCountsEveryLine | app.js:551-602 | with the lookup in the current list, successes plus failures equal the number of lines |
| BulkImport.Lines | app.js:535-542 | no line processed is blank; `LinesMembers` states which lines they are |
| BulkImport.LinesMembers | app.js:535-542 | the lines processed are exactly the non-blank lines of the trimmed input |
| BulkImport.ImportWith | app.js:533-602 | blank input only alerts. Otherwise failures equal the errors listed, no more lines are counted than exist, and each error names its line and reason |
| BulkImport.ShownErrors | app.js:607-611 | the message lists every error when there are at most five, otherwise the first five |
| BulkImport.Start | app.js:543-549 | the import starts from the stored list, with `existingWordsSet` holding its lower-cased spellings, no successes, no failures and no errors |
| BulkImport.StartKnows | app.js:543-549 | before the first line, a spelling is in `existingWordsSet` exactly when some stored record has it, lower-cased, and both counts and the error list are empty |
| BulkImport.ImportText | app.js:533-620 | as written: blank input only alerts. Otherwise failures equal the errors listed and no more lines are counted than exist. With unique ids no stored record loses its place or history, and no added record repeats a spelling |
| BulkImport.ImportKeepsHistory | app.js:533-602 | with the fix, or as written when the stored ids are unique, the import never loses a stored record or its history, and never adds a record whose spelling is already in the list, ignoring case |
| BulkImport.ImportConsistent | app.js:533-602 | the import keeps the counter invariant on every record |
| BulkImport.ImportTextFixed | app.js:533-620 | with the fix, the closing counts account for every non-blank line, and no stored record loses its place or history whatever the ids |
| BulkImport.RepeatDroppedAsWritten | app.js:581-591 | as written, a second line for a spelling added earlier in the same import is dropped. It counts as neither success nor failure, and the record keeps the first line's meanings |
| BulkImport.RepeatResetWhenFixed | app.js:581-597 | with the fix, the second line resets the record the first one added, and both lines count as successes |
| BulkImport.AppleTwice | app.js:581-591 | `apple red` then `apple green` into a list without "apple" meets the conditions of the two repeat lemmas |

## Left out

- `localStorage`, `JSON.parse` and `JSON.stringify` are left out. The stored list is the `seq<Word>` each operation takes and returns.
- `AudioManager`, speech synthesis and every DOM read or write are left out. This covers the CSS classes, feedback text, word-list rendering (`loadWordList`, `sortWordList`), alerts and field clearing. Each handler returns a status or follow-up instead.
- `setTimeout` is not run. A handler returns the follow-up it schedules (`SubmitSoon`, `ClearSoon`, `NextWordSoon`, `RevealThenNext`, `Retry`). `Ui.ReleaseLatch` is what the clearing timer does to the session.
- `Math.random()` is replaced by the index it produces, which is a parameter bounded by the pool or mode count.
- `Date.now()` ids and ISO timestamps are parameters. Nothing in the source keeps ids unique, because two records created in the same millisecond share one. The model therefore requires `Storage.IdsUnique` only in the lemmas that state it.
- Throwing on a record that is gone is modelled as an aborted outcome with nothing changed. `submitAnswer` (and `handleSubmit` through it) and the penalty in `handleInput` throw before any write.
- The `catch` around `Storage.addWord` in `bulkImport` is left out. It can only fire on a storage failure, which is I/O, so the "add failed" error is never produced. A storage failure in the `updateWord` of a reset (app.js:587) is not caught and would abort the import after the earlier lines were saved; that is left out too.
- The closing alert's text and the clear-and-reload on success at the end of `bulkImport` are left out. `BulkImport.ShownErrors` models which errors the alert lists.
- `skipCount` in `bulkImport` is declared but never changed or shown, so it is not modelled.
- `bulkImport` resets a known spelling on the record object from its initial `getWords()` array. That object is then mutated, so later lines see the mutated copy. Only the record's proficiency and meanings change, and those do not affect the lookup, so the model reads the unchanged snapshot.
- Text.ToLower: maps only the ASCII capitals A-Z. JavaScript's `toLowerCase` covers all of Unicode; the stored spellings and typed answers are English words.
- Practice.Score: the counters are unbounded `nat`s. The source uses IEEE doubles, which are exact far beyond any reachable count.
- Practice.SubmitAnswer: the timestamp is the one `now` parameter. The source reads the clock again for each write.
- Practice.SubmitAnswer: requires a current word. With none, `this.currentWord.word` (app.js:151) throws a TypeError, which the model does not represent.
- Practice.ValidateInput: requires a current word. With none, `this.currentWord.word` (app.js:120) throws a TypeError, which the model does not represent.
- Ui.HandleInput: requires a current word, because it calls `validateInput` first (app.js:373), which throws with none. The handler's own `if (word)` test (app.js:392) is therefore never reached without one.
- `Storage.getWords` and `Storage.saveWords` are left out. Reading and writing the list are the identity here.
- The corrected import (`BulkImport.ImportTextFixed`) resets a repeated spelling at the position the lookup in the current list finds. It writes at that position, not by id, so it does not depend on unique ids.

## Findings

| source | as written | input that shows it | evidently intended | confidence | as-written member | corrected member |
|---|---|---|---|---|---|---|
| app.js:497-512 | the duplicate path of `addWord` stores the pieces of `split(/[,，]/).filter(m => m.trim())` untrimmed. `Storage.addWord` and `bulkImport` trim every meaning | stored word "apple"; form "apple" / "red, fruit"; confirm accepted. The stored meanings become `["red", " fruit"]` | meanings trimmed on the reset path as well, giving `["red", "fruit"]` | not executed | Ui.AddWordResetKeepsPadding | Ui.AddWordTrimmedMeanings |
| app.js:581-591 | a spelling added by an earlier line of the same import is in `existingWordsSet`, but the `find` runs over the list read before the import. So the later line finds nothing and returns without counting | `apple red` then `apple green` into a list without "apple": 1 success, 0 failures, and the record keeps "red" | the later line resets the record just added and counts as a success, so every non-blank line is counted | not executed | BulkImport.RepeatDroppedAsWritten | BulkImport.RepeatResetWhenFixed |

=== FILE: import.dfy ===
/**
 `UIController.bulkImport`: one word per line, written `word meaning1,meaning2`.
 Each non-blank line is parsed, then either rejected with a numbered error,
 added as a new record, or, when its spelling is already known, used to reset
 the stored record. The clock is passed in as the reading each line would take.
 */
module BulkImport {
  import opened Vocab
  import opened Text
  import opened Storage
  import Ui

  // ---------------------------------------------------------------- one line

  /** The three messages a line can be rejected with. */
  datatype LineError = MissingSeparator | EmptyPart | NoValidMeaning

  /** A parsed line: nothing to do (a blank line), a rejection, or an entry. */
  datatype Line = Skipped | Bad(reason: LineError) | Entry(word: string, meanings: seq<string>)

  /** `parts.filter(m => m)`: the non-empty strings, in order. */
  function NonEmpty(parts: seq<string>): (r: seq<string>)
    ensures |r| <= |parts|
    ensures forall i :: 0 <= i < |r| ==> r[i] != []
  {
    if |parts| == 0 then []
    else (if parts[0] != [] then [parts[0]] else []) + NonEmpty(parts[1..])
  }

  /** A list without empty pieces passes the filter whole. */
  lemma {:induction false} NonEmptyKeepsAll(parts: seq<string>)
    requires forall i :: 0 <= i < |parts| ==> parts[i] != []
    ensures NonEmpty(parts) == parts
    decreases |parts|
  {
    if |parts| > 0 {
      NonEmptyKeepsAll(parts[1..]);
      HeadRest(parts);
    }
  }

  /** Trimmed pieces stay trimmed through the filter. */
  lemma {:induction false} NonEmptyTrimmed(parts: seq<string>)
    requires forall i :: 0 <= i < |parts| ==> Trimmed(parts[i])
    ensures forall i :: 0 <= i < |NonEmpty(parts)| ==> Trimmed(NonEmpty(parts)[i])
    decreases |parts|
  {
    if |parts| > 0 {
      NonEmptyTrimmed(parts[1..]);
    }
  }

  /** A piece is kept exactly when it is in the input and is not empty. */
  lemma {:induction false} NonEmptyMembers(parts: seq<string>)
    ensures forall m :: m in NonEmpty(parts) <==> m in parts && m != []
    decreases |parts|
  {
    if |parts| > 0 {
      NonEmptyMembers(parts[1..]);
      HeadRest(parts);
    }
  }

  /** `parts.filter(m => m)` works piece by piece, so the kept pieces stay
      in their order. */
  lemma {:induction false} NonEmptyAppend(a: seq<string>, b: seq<string>)
    ensures NonEmpty(a + b) == NonEmpty(a) + NonEmpty(b)
    decreases |a|
  {
    if |a| > 0 {
      var head := if a[0] != [] then [a[0]] else [];
      ConcatRest(a, b);
      assert NonEmpty(a + b) == head + NonEmpty(a[1..] + b);
      NonEmptyAppend(a[1..], b);
      ConcatAssoc(head, NonEmpty(a[1..]), NonEmpty(b));
    } else {
      assert a + b == b;
    }
  }

  /** The meanings of a line: `text.split(/[,，]/).map(m => m.trim()).filter(m => m)`. */
  function Meanings(text: string): (ms: seq<string>)
    ensures forall i :: 0 <= i < |ms| ==> ms[i] != [] && Trimmed(ms[i])
  {
    NonEmptyTrimmed(TrimAll(Split(text, Ui.MeaningSeparators)));
    NonEmpty(TrimAll(Split(text, Ui.MeaningSeparators)))
  }

  /** Every piece between separators that is not blank gives its trimmed
      text as a meaning, and every meaning is such a piece, trimmed. */
  lemma MeaningsMembers(text: string)
    ensures var pieces := Split(text, Ui.MeaningSeparators);
            && (forall p :: p in pieces && Trim(p) != [] ==> Trim(p) in Meanings(text))
            && (forall m :: m in Meanings(text) ==> exists p :: p in pieces && m == Trim(p))
  {
    TrimAllMembers(Split(text, Ui.MeaningSeparators));
    NonEmptyMembers(TrimAll(Split(text, Ui.MeaningSeparators)));
  }

  /** The per-line parse of `bulkImport`: the line is trimmed, the word is what
      precedes its first space and the meaning text what follows it, both
      trimmed. */
  function ParseLine(line: string): (r: Line)
    ensures r.Skipped? <==> AllSpace(line)
    ensures r == Bad(MissingSeparator) <==> Trim(line) != [] && ' ' !in Trim(line)
    ensures r.Entry? ==>
              && r.word != [] && Trimmed(r.word) && ' ' !in r.word
              && r.meanings != []
              && forall i :: 0 <= i < |r.meanings| ==> r.meanings[i] != [] && Trimmed(r.meanings[i])
  {
    TrimEmptyIffBlank(line);
    var t := Trim(line);
    if t == [] then Skipped
    else
      var i := IndexOf(t, ' ');
      if i == -1 then Bad(MissingSeparator)
      else
        var word := Trim(t[..i]);
        var text := Trim(t[i + 1..]);
        if word == [] || text == [] then Bad(EmptyPart)
        else
          var ms := Meanings(text);
          if ms == [] then Bad(NoValidMeaning)
          else
            assert ' ' !in word by {
              TrimChars(t[..i]);
            }
            Entry(word, ms)
  }

  /** A line with a space in its trim is accepted exactly when the text after
      the first space has a meaning, and is otherwise rejected for having no
      valid meaning. */
  lemma ParseLineDecides(line: string)
    ensures var t := Trim(line);
            var i := IndexOf(t, ' ');
            && (ParseLine(line).Entry? <==> 0 <= i && Meanings(Trim(t[i + 1..])) != [])
            && (ParseLine(line) == Bad(NoValidMeaning) <==> 0 <= i && Meanings(Trim(t[i + 1..])) == [])
            && (ParseLine(line).Entry? ==> ParseLine(line) == Entry(Trim(t[..i]), Meanings(Trim(t[i + 1..]))))
  {
    var t := Trim(line);
    var i := IndexOf(t, ' ');
    TrimEmptyIffBlank(line);
    if 0 <= i {
      BothSidesFilled(t);
      var ms := Meanings(Trim(t[i + 1..]));
      assert ParseLine(line) == if ms == [] then Bad(NoValidMeaning) else Entry(Trim(t[..i]), ms);
    }
  }

  /** The "word or meaning empty" rejection never happens: a trimmed line has
      a non-blank character on both sides of any inner space. */
  lemma NeverEmptyPart(line: string)
    ensures ParseLine(line) != Bad(EmptyPart)
  {
    var t := Trim(line);
    if t != [] && ' ' in t {
      BothSidesFilled(t);
    }
  }

  /** In a trimmed text holding a space, the pieces before and after its
      first space are not blank. */
  lemma BothSidesFilled(t: string)
    requires Trimmed(t) && t != [] && ' ' in t
    ensures var i := IndexOf(t, ' ');
            0 < i < |t| - 1 && Trim(t[..i]) != [] && Trim(t[i + 1..]) != []
  {
    var i := IndexOf(t, ' ');
    assert 0 < i < |t| - 1;
    assert !AllSpace(t[..i]) by {
      assert t[..i][0] == t[0];
    }
    assert !AllSpace(t[i + 1..]) by {
      assert t[i + 1..][|t| - i - 2] == t[|t| - 1];
    }
    TrimEmptyIffBlank(t[..i]);
    TrimEmptyIffBlank(t[i + 1..]);
  }

  /** The import format for one record. */
  function Format(word: string, meanings: seq<string>): (line: string)
    requires |meanings| >= 1
    ensures |line| > |word|
  {
    word + " " + Join(meanings, ',')
  }

  /** What `Format` can write so that `ParseLine` reads it back: a spelling
      without spaces or blanks at its ends, and meanings that are non-empty,
      trimmed and free of commas. */
  predicate Writable(word: string, meanings: seq<string>) {
    && word != [] && Trimmed(word) && ' ' !in word
    && |meanings| >= 1
    && forall i :: 0 <= i < |meanings| ==>
         meanings[i] != [] && Trimmed(meanings[i]) && NoSeps(meanings[i], Ui.MeaningSeparators)
  }

  /** Parsing a formatted record gives back the record. */
  lemma ParseFormat(word: string, meanings: seq<string>)
    requires Writable(word, meanings)
    ensures ParseLine(Format(word, meanings)) == Entry(word, meanings)
  {
    var text := Join(meanings, ',');
    FormatLayout(word, meanings);
    TrimOfTrimmed(word);
    TrimOfTrimmed(text);
    MeaningsOfJoin(meanings);
  }

  /** The formatted line is already trimmed, and its first space is the one
      after the spelling. */
  lemma FormatLayout(word: string, meanings: seq<string>)
    requires Writable(word, meanings)
    ensures var line := Format(word, meanings);
            var text := Join(meanings, ',');
            && Trimmed(text)
            && Trim(line) == line
            && IndexOf(line, ' ') == |word|
            && line[..|word|] == word
            && line[|word| + 1..] == text
  {
    var text := Join(meanings, ',');
    var line := Format(word, meanings);
    JoinEnds(meanings, ',');
    assert line[0] == word[0] && line[|line| - 1] == text[|text| - 1];
    TrimOfTrimmed(line);
    assert line[..|word|] == word;
    IndexOfAt(line, ' ', |word|);
    assert line[|word| + 1..] == text;
  }

  /** The meanings written by `Format` are read back unchanged. */
  lemma MeaningsOfJoin(meanings: seq<string>)
    requires |meanings| >= 1
    requires forall i :: 0 <= i < |meanings| ==>
               meanings[i] != [] && Trimmed(meanings[i]) && NoSeps(meanings[i], Ui.MeaningSeparators)
    ensures Meanings(Join(meanings, ',')) == meanings
  {
    SplitJoin(meanings, ',', Ui.MeaningSeparators);
    TrimAllOfTrimmed(meanings);
    NonEmptyKeepsAll(meanings);
  }

  lemma TrimAllOfTrimmed(ms: seq<string>)
    requires forall i :: 0 <= i < |ms| ==> Trimmed(ms[i])
    ensures TrimAll(ms) == ms
  {
    forall i | 0 <= i < |ms|
      ensures TrimAll(ms)[i] == ms[i]
    {
      TrimOfTrimmed(ms[i]);
    }
  }

  // ---------------------------------------------------------------- the fold

  /** The clock readings a new record takes: `Date.now()` as its id and
      `new Date().toISOString()` as its creation time. */
  datatype Stamp = Stamp(id: string, time: Timestamp)

  /** One entry of `errors`: the line number and the message. Lines are
      numbered among the non-blank lines only. */
  datatype ImportError = ImportError(line: nat, reason: LineError)

  /** The running state of the `forEach`: the stored list, `existingWordsSet`,
      and the two counters and the error list. */
  datatype ImportState = ImportState(
    store: seq<Word>,
    known: set<string>,
    successes: nat,
    failures: nat,
    errors: seq<ImportError>)

  /** The lower-cased spellings of a list. */
  function Spellings(words: seq<Word>): set<string> {
    set w <- words :: ToLower(w.word)
  }

  /** The state before the first line: `existingWordsSet` holds the stored
      spellings, both counters are zero. */
  function Start(words: seq<Word>): (st: ImportState)
    ensures st.store == words && st.known == Spellings(words)
    ensures st.successes == 0 && st.failures == 0 && st.errors == []
  {
    ImportState(words, Spellings(words), 0, 0, [])
  }

  /** Before the first line, a spelling is known exactly when some stored
      record has it, ignoring case, and nothing has been counted. */
  lemma StartKnows(words: seq<Word>, spelling: string)
    ensures spelling in Start(words).known <==> exists j :: 0 <= j < |words| && ToLower(words[j].word) == spelling
    ensures Start(words).successes == 0 && Start(words).failures == 0 && Start(words).errors == []
  {
  }

  /** A well-formed line of the `forEach`, spelled `word`. `snapshot` is
      `existingWords`, the list as read once before the loop. As written
      (`lookupStore` false), a known spelling is looked up in the snapshot, so
      a spelling added earlier in the same import is found in
      `existingWordsSet` but not in the snapshot, and its line is dropped
      without being counted. With `lookupStore` the record is looked up in the
      current list and reset in place. The source also assigns the two fields
      on the snapshot object itself; since every reset overwrites both of
      them again, the snapshot is left as it is here. */
  function Accept(snapshot: seq<Word>, st: ImportState, word: string, meanings: seq<string>, stamp: Stamp,
                  lookupStore: bool): (r: ImportState)
    ensures r.errors == st.errors && r.failures == st.failures
    ensures r.successes <= st.successes + 1 && |r.store| >= |st.store|
  {
    if ToLower(word) in st.known then
      if lookupStore then
        match Ui.FindSpelling(st.store, word)
        case None => st
        case Some(i) =>
          st.(store := st.store[i := st.store[i].(proficiency := InitialProficiency, meanings := meanings)],
              successes := st.successes + 1)
      else
        match Ui.FindSpelling(snapshot, word)
        case None => st
        case Some(i) =>
          var e := snapshot[i].(proficiency := InitialProficiency, meanings := meanings);
          st.(store := UpdateWord(st.store, e.id, Whole(e)).words, successes := st.successes + 1)
    else
      st.(store := AddWord(st.store, word, meanings, stamp.id, stamp.time).words,
          known := st.known + {ToLower(word)},
          successes := st.successes + 1)
  }

  /** One line of the `forEach` (the `k`-th non-blank line, from 0): a
      rejected line is counted and reported under its number, a blank one
      ignored, a well-formed one accepted. */
  function ImportLine(snapshot: seq<Word>, st: ImportState, k: nat, line: string, stamp: Stamp,
                      lookupStore: bool): (r: ImportState)
    ensures r.errors == st.errors + (if ParseLine(line).Bad? then [ImportError(k + 1, ParseLine(line).reason)] else [])
    ensures r.failures == st.failures + (if ParseLine(line).Bad? then 1 else 0)
    ensures r.successes <= st.successes + (if ParseLine(line).Entry? then 1 else 0)
    ensures !ParseLine(line).Entry? ==> r.store == st.store && r.known == st.known
    ensures |r.store| >= |st.store|
  {
    match ParseLine(line)
    case Skipped => st
    case Bad(e) => st.(failures := st.failures + 1, errors := st.errors + [ImportError(k + 1, e)])
    case Entry(word, meanings) => Accept(snapshot, st, word, meanings, stamp, lookupStore)
  }

  /** The `forEach` over the lines; the `k`-th line reads the clock as `clock(k)`. */
  function Run(snapshot: seq<Word>, st: ImportState, lines: seq<string>, clock: nat -> Stamp,
               lookupStore: bool): (r: ImportState)
    ensures |r.store| >= |st.store| && st.errors <= r.errors
    ensures r.failures - st.failures == |r.errors| - |st.errors|
    ensures r.successes + r.failures <= st.successes + st.failures + |lines|
    decreases |lines|
  {
    if |lines| == 0 then st
    else
      var k := |lines| - 1;
      ImportLine(snapshot, Run(snapshot, st, lines[..k], clock, lookupStore), k, lines[k], clock(k),
                 lookupStore)
  }

  /** The fold's last step: the last line applied to the fold of the others. */
  lemma RunStep(snapshot: seq<Word>, st: ImportState, lines: seq<string>, clock: nat -> Stamp, lookupStore: bool)
    requires |lines| > 0
    ensures var k := |lines| - 1;
            Run(snapshot, st, lines, clock, lookupStore) ==
            ImportLine(snapshot, Run(snapshot, st, lines[..k], clock, lookupStore), k, lines[k], clock(k), lookupStore)
  {
  }

  /** A spelling not yet known appends a new record, remembers the spelling
      and counts a success. */
  lemma NewSpellingAdded(snapshot: seq<Word>, st: ImportState, word: string, meanings: seq<string>,
                         stamp: Stamp, lookupStore: bool)
    requires ToLower(word) !in st.known
    ensures var r := Accept(snapshot, st, word, meanings, stamp, lookupStore);
            && r.store == st.store + [AddWord(st.store, word, meanings, stamp.id, stamp.time).record]
            && r.known == st.known + {ToLower(word)}
            && r.successes == st.successes + 1
  {
  }

  /** A known spelling counts a success exactly when it is found in the list
      it is looked up in, and then resets the record found: proficiency -100
      and the line's meanings, with its id, spelling, creation time and
      statistics kept, and no other record touched. As written the record is
      found in the snapshot and written back by id, which lands on the same
      position when the records the import started from have unique ids. */
  lemma KnownSpellingLookedUp(snapshot: seq<Word>, st: ImportState, word: string, meanings: seq<string>,
                              stamp: Stamp, lookupStore: bool)
    requires ToLower(word) in st.known
    ensures var r := Accept(snapshot, st, word, meanings, stamp, lookupStore);
            var found := Ui.FindSpelling(if lookupStore then st.store else snapshot, word);
            && r.known == st.known && |r.store| == |st.store|
            && (found.Some? ==> r.successes == st.successes + 1)
            && (found.None? ==> r == st)
    ensures var r := Accept(snapshot, st, word, meanings, stamp, lookupStore);
            var found := Ui.FindSpelling(if lookupStore then st.store else snapshot, word);
            found.Some? && (lookupStore || (Good(snapshot, st) && IdsUnique(snapshot))) ==>
              && found.value < |st.store|
              && r.store == st.store[found.value := st.store[found.value].(proficiency := -100, meanings := meanings)]
  {
    if !lookupStore {
      var f := Ui.FindSpelling(snapshot, word);
      if f.Some? && Good(snapshot, st) && IdsUnique(snapshot) {
        var i := f.value;
        var e := snapshot[i].(proficiency := InitialProficiency, meanings := meanings);
        UpdateAtSnapshot(snapshot, st, i, e);
        assert Kept(snapshot[i], st.store[i]);
      }
    }
  }

  // ---------------------------------------------------------------- properties

  /** Every line parsed, in order. */
  function ParseAll(lines: seq<string>): (parsed: seq<Line>)
    ensures |parsed| == |lines|
  {
    Map(ParseLine, lines)
  }

  /** Each error names a line and the reason that line was rejected, and the
      errors are in line order. */
  predicate ErrorsFit(errors: seq<ImportError>, parsed: seq<Line>) {
    && (forall i :: 0 <= i < |errors| ==>
          && 1 <= errors[i].line <= |parsed|
          && parsed[errors[i].line - 1] == Bad(errors[i].reason))
    && (forall i, j :: 0 <= i < j < |errors| ==> errors[i].line < errors[j].line)
  }

  /** Reporting line `k + 1` after the errors of the first `k` lines keeps the
      error list fitting. */
  lemma ErrorsFitStep(errors: seq<ImportError>, parsed: seq<Line>, p: Line)
    requires ErrorsFit(errors, parsed)
    ensures ErrorsFit(errors + (if p.Bad? then [ImportError(|parsed| + 1, p.reason)] else []), parsed + [p])
  {
    var all := parsed + [p];
    forall i | 0 <= i < |errors|
      ensures all[errors[i].line - 1] == Bad(errors[i].reason)
    {
    }
  }

  /** One more line keeps the error list the failure count's worth of entries
      and fitting the lines read so far. */
  lemma ErrorsStep(snapshot: seq<Word>, words: seq<Word>, lines: seq<string>, clock: nat -> Stamp, lookupStore: bool)
    requires |lines| > 0
    requires var prev := Run(snapshot, Start(words), lines[..|lines| - 1], clock, lookupStore);
             prev.failures == |prev.errors| && ErrorsFit(prev.errors, ParseAll(lines[..|lines| - 1]))
    ensures var r := Run(snapshot, Start(words), lines, clock, lookupStore);
            r.failures == |r.errors| && ErrorsFit(r.errors, ParseAll(lines))
  {
    var k := |lines| - 1;
    ParseAllStep(lines);
    RunStep(snapshot, Start(words), lines, clock, lookupStore);
    ImportLineErrors(snapshot, Run(snapshot, Start(words), lines[..k], clock, lookupStore), k, lines[k], clock(k),
                     lookupStore, ParseAll(lines[..k]));
  }

  /** The `i`-th parse is the parse of the `i`-th line. */
  lemma ParseAllAt(lines: seq<string>, i: nat)
    requires i < |lines|
    ensures ParseAll(lines)[i] == ParseLine(lines[i])
  {
    MapAt(ParseLine, lines, i);
  }

  /** Parsing is line by line: the last line's parse follows the others'. */
  lemma ParseAllStep(lines: seq<string>)
    requires |lines| > 0
    ensures ParseAll(lines) == ParseAll(lines[..|lines| - 1]) + [ParseLine(lines[|lines| - 1])]
  {
  }

  /** Line `k + 1`, read after `k` lines whose errors fit, keeps the errors
      fitting and the failure count in step with them. */
  lemma ImportLineErrors(snapshot: seq<Word>, prev: ImportState, k: nat, line: string, stamp: Stamp,
                         lookupStore: bool, parsed: seq<Line>)
    requires k == |parsed| && prev.failures == |prev.errors| && ErrorsFit(prev.errors, parsed)
    ensures var r := ImportLine(snapshot, prev, k, line, stamp, lookupStore);
            r.failures == |r.errors| && ErrorsFit(r.errors, parsed + [ParseLine(line)])
  {
    ErrorsFitStep(prev.errors, parsed, ParseLine(line));
  }

  /** The error list is the failure count's worth of entries, each naming a
      line that exists and the reason that line was rejected, in line order. */
  lemma {:induction false} ErrorsNameTheirLines(snapshot: seq<Word>, words: seq<Word>, lines: seq<string>,
                                                clock: nat -> Stamp, lookupStore: bool)
    ensures var r := Run(snapshot, Start(words), lines, clock, lookupStore);
            r.failures == |r.errors| && ErrorsFit(r.errors, ParseAll(lines))
    decreases |lines|
  {
    if |lines| > 0 {
      ErrorsNameTheirLines(snapshot, words, lines[..|lines| - 1], clock, lookupStore);
      ErrorsStep(snapshot, words, lines, clock, lookupStore);
    }
  }

  /** Accepting a line keeps `practiceCount == correctCount + errorCount` on
      every record. */
  lemma AcceptConsistent(snapshot: seq<Word>, st: ImportState, word: string, meanings: seq<string>,
                         stamp: Stamp, lookupStore: bool)
    requires AllConsistent(snapshot) && AllConsistent(st.store)
    ensures AllConsistent(Accept(snapshot, st, word, meanings, stamp, lookupStore).store)
  {
    if ToLower(word) !in st.known {
      AddKeepsConsistent(st.store, word, meanings, stamp.id, stamp.time);
    } else if lookupStore {
      var f := Ui.FindSpelling(st.store, word);
      if f.Some? {
        assert Consistent(st.store[f.value].stats);
      }
    } else {
      var f := Ui.FindSpelling(snapshot, word);
      if f.Some? {
        var e := snapshot[f.value].(proficiency := InitialProficiency, meanings := meanings);
        assert Consistent(snapshot[f.value].stats);
        UpdateKeepsConsistent(st.store, e.id, Whole(e));
      }
    }
  }

  /** The whole import keeps the counter invariant. */
  lemma {:induction false} ImportKeepsConsistent(snapshot: seq<Word>, st: ImportState, lines: seq<string>,
                                                 clock: nat -> Stamp, lookupStore: bool)
    requires AllConsistent(snapshot) && AllConsistent(st.store)
    ensures AllConsistent(Run(snapshot, st, lines, clock, lookupStore).store)
    decreases |lines|
  {
    if |lines| > 0 {
      var k := |lines| - 1;
      var prev := Run(snapshot, st, lines[..k], clock, lookupStore);
      ImportKeepsConsistent(snapshot, st, lines[..k], clock, lookupStore);
      var p := ParseLine(lines[k]);
      if p.Entry? {
        AcceptConsistent(snapshot, prev, p.word, p.meanings, clock(k), lookupStore);
      }
      assert Run(snapshot, st, lines, clock, lookupStore) ==
             ImportLine(snapshot, prev, k, lines[k], clock(k), lookupStore);
    }
  }

  // ---------------------------------------------------------------- the invariant

  /** A record left as it was apart from its proficiency and meanings: same
      id, spelling, creation time and practice history. */
  predicate Kept(before: Word, after: Word) {
    && after.id == before.id && after.word == before.word
    && after.addedTime == before.addedTime && after.stats == before.stats
  }

  /** No record from position `from` on repeats, ignoring case, the spelling of
      any record before it. */
  predicate NoRepeatsFrom(store: seq<Word>, from: nat) {
    forall j, k :: 0 <= j < k < |store| && from <= k ==> ToLower(store[j].word) != ToLower(store[k].word)
  }

  /** What the import keeps true of the list it started from: those records
      are still in place with their identity and history, `existingWordsSet`
      is exactly the set of stored spellings, and no record the import added
      repeats the spelling of an earlier one. */
  predicate Good(words: seq<Word>, st: ImportState) {
    && |st.store| >= |words|
    && (forall j :: 0 <= j < |words| ==> Kept(words[j], st.store[j]))
    && st.known == Spellings(st.store)
    && NoRepeatsFrom(st.store, |words|)
  }

  lemma StartGood(words: seq<Word>)
    ensures Good(words, Start(words))
  {
  }

  /** Lists with the same spellings position by position have the same
      spelling set. */
  lemma SpellingsSameWords(a: seq<Word>, b: seq<Word>)
    requires |a| == |b| && forall j :: 0 <= j < |a| ==> a[j].word == b[j].word
    ensures Spellings(a) == Spellings(b)
  {
    forall x | x in Spellings(a)
      ensures x in Spellings(b)
    {
      var w :| w in a && ToLower(w.word) == x;
      var j :| 0 <= j < |a| && a[j] == w;
      assert b[j] in b;
    }
    forall x | x in Spellings(b)
      ensures x in Spellings(a)
    {
      var w :| w in b && ToLower(w.word) == x;
      var j :| 0 <= j < |b| && b[j] == w;
      assert a[j] in a;
    }
  }

  lemma SpellingsAppend(a: seq<Word>, w: Word)
    ensures Spellings(a + [w]) == Spellings(a) + {ToLower(w.word)}
  {
    forall x | x in Spellings(a)
      ensures x in Spellings(a + [w])
    {
      var v :| v in a && ToLower(v.word) == x;
      assert v in a + [w];
    }
    assert w in a + [w];
  }

  /** Overwriting one record with a kept version of itself keeps the
      invariant. */
  lemma ReplaceGood(words: seq<Word>, st: ImportState, i: nat, e: Word)
    requires Good(words, st) && i < |st.store| && Kept(st.store[i], e)
    ensures Good(words, st.(store := st.store[i := e], successes := st.successes + 1))
  {
    var store := st.store[i := e];
    SpellingsSameWords(st.store, store);
    assert forall j :: 0 <= j < |store| ==> store[j].word == st.store[j].word;
  }

  /** Appending a record whose spelling is not yet known, and remembering
      that spelling, keeps the invariant. */
  lemma AppendGood(words: seq<Word>, st: ImportState, rec: Word)
    requires Good(words, st) && ToLower(rec.word) !in st.known
    ensures Good(words, st.(store := st.store + [rec], known := st.known + {ToLower(rec.word)},
                            successes := st.successes + 1))
  {
    SpellingsAppend(st.store, rec);
    var store := st.store + [rec];
    forall j | 0 <= j < |st.store|
      ensures ToLower(store[j].word) != ToLower(rec.word)
    {
      assert st.store[j] in st.store;
    }
  }

  /** Adding a record for a spelling not yet known keeps the invariant. */
  lemma AddGood(words: seq<Word>, st: ImportState, word: string, meanings: seq<string>, stamp: Stamp,
                lookupStore: bool)
    requires Good(words, st) && Trimmed(word) && ToLower(word) !in st.known
    ensures Good(words, Accept(words, st, word, meanings, stamp, lookupStore))
  {
    NewSpellingAdded(words, st, word, meanings, stamp, lookupStore);
    var rec := AddWord(st.store, word, meanings, stamp.id, stamp.time).record;
    AddedSpelling(st.store, word, meanings, stamp);
    AppendGood(words, st, rec);
  }

  /** The record added for a trimmed spelling is found under that spelling,
      ignoring case. */
  lemma AddedSpelling(words: seq<Word>, word: string, meanings: seq<string>, stamp: Stamp)
    requires Trimmed(word)
    ensures ToLower(AddWord(words, word, meanings, stamp.id, stamp.time).record.word) == ToLower(word)
  {
    AddWordSpelling(words, word, meanings, stamp.id, stamp.time);
    TrimOfTrimmed(word);
    ToLowerIdempotent(word);
  }

  /** As written, the reset record is found by id; with unique ids among the
      records the import started from, that is the snapshot's own position. */
  lemma UpdateAtSnapshot(words: seq<Word>, st: ImportState, i: nat, e: Word)
    requires Good(words, st) && IdsUnique(words) && i < |words| && e.id == words[i].id
    ensures UpdateWord(st.store, e.id, Whole(e)).words == st.store[i := e]
  {
    assert st.store[i].id == e.id;
    MergeWhole(st.store[i], e);
  }

  /** Accepting a well-formed line keeps the invariant: always with the
      lookup in the current list, and as written when the records the import
      started from have unique ids. */
  lemma AcceptGood(words: seq<Word>, st: ImportState, word: string, meanings: seq<string>, stamp: Stamp,
                   lookupStore: bool)
    requires Good(words, st) && Trimmed(word)
    requires lookupStore || IdsUnique(words)
    ensures Good(words, Accept(words, st, word, meanings, stamp, lookupStore))
  {
    if ToLower(word) !in st.known {
      AddGood(words, st, word, meanings, stamp, lookupStore);
    } else if lookupStore {
      var f := Ui.FindSpelling(st.store, word);
      if f.Some? {
        var i := f.value;
        ReplaceGood(words, st, i, st.store[i].(proficiency := InitialProficiency, meanings := meanings));
      }
    } else {
      var f := Ui.FindSpelling(words, word);
      if f.Some? {
        var i := f.value;
        var e := words[i].(proficiency := InitialProficiency, meanings := meanings);
        UpdateAtSnapshot(words, st, i, e);
        ReplaceGood(words, st, i, e);
      }
    }
  }

  /** One line keeps the invariant. */
  lemma ImportLineGood(words: seq<Word>, st: ImportState, k: nat, line: string, stamp: Stamp, lookupStore: bool)
    requires Good(words, st)
    requires lookupStore || IdsUnique(words)
    ensures Good(words, ImportLine(words, st, k, line, stamp, lookupStore))
  {
    var p := ParseLine(line);
    if p.Entry? {
      AcceptGood(words, st, p.word, p.meanings, stamp, lookupStore);
    }
  }

  /** The whole import keeps the invariant. */
  lemma {:induction false} RunGood(words: seq<Word>, st: ImportState, lines: seq<string>, clock: nat -> Stamp,
                                   lookupStore: bool)
    requires Good(words, st)
    requires lookupStore || IdsUnique(words)
    ensures Good(words, Run(words, st, lines, clock, lookupStore))
    decreases |lines|
  {
    if |lines| > 0 {
      var k := |lines| - 1;
      var prev := Run(words, st, lines[..k], clock, lookupStore);
      RunGood(words, st, lines[..k], clock, lookupStore);
      ImportLineGood(words, prev, k, lines[k], clock(k), lookupStore);
      assert Run(words, st, lines, clock, lookupStore) == ImportLine(words, prev, k, lines[k], clock(k), lookupStore);
    }
  }

  // ---------------------------------------------------------------- counting

  /** A spelling in the set of stored spellings is found by the
      case-insensitive lookup. */
  lemma KnownIsFound(store: seq<Word>, word: string)
    requires ToLower(word) in Spellings(store)
    ensures Ui.FindSpelling(store, word).Some?
  {
    var w :| w in store && ToLower(w.word) == ToLower(word);
    var j :| 0 <= j < |store| && store[j] == w;
  }

  /** With the lookup in the current list, every non-blank line counts once,
      as a success or as a failure. */
  lemma ImportLineCounts(words: seq<Word>, st: ImportState, k: nat, line: string, stamp: Stamp)
    requires Good(words, st) && !AllSpace(line)
    ensures var r := ImportLine(words, st, k, line, stamp, true);
            r.successes + r.failures == st.successes + st.failures + 1
  {
    var p := ParseLine(line);
    if p.Entry? {
      if ToLower(p.word) in st.known {
        KnownIsFound(st.store, p.word);
        KnownSpellingLookedUp(words, st, p.word, p.meanings, stamp, true);
      } else {
        NewSpellingAdded(words, st, p.word, p.meanings, stamp, true);
      }
    }
  }

  lemma {:induction false} RunCountsEveryLine(words: seq<Word>, st: ImportState, lines: seq<string>,
                                              clock: nat -> Stamp)
    requires Good(words, st)
    requires forall i :: 0 <= i < |lines| ==> !AllSpace(lines[i])
    ensures var r := Run(words, st, lines, clock, true);
            r.successes + r.failures == st.successes + st.failures + |lines|
    decreases |lines|
  {
    if |lines| > 0 {
      var k := |lines| - 1;
      var prev := Run(words, st, lines[..k], clock, true);
      RunCountsEveryLine(words, st, lines[..k], clock);
      RunGood(words, st, lines[..k], clock, true);
      ImportLineCounts(words, prev, k, lines[k], clock(k));
      assert Run(words, st, lines, clock, true) == ImportLine(words, prev, k, lines[k], clock(k), true);
    }
  }

  // ---------------------------------------------------------------- the handler

  /** `text.split('\n').filter(line => line.trim())` on the trimmed input. */
  function Lines(text: string): (lines: seq<string>)
    ensures forall i :: 0 <= i < |lines| ==> !AllSpace(lines[i])
  {
    var lines := Ui.NonBlank(Split(Trim(text), {'\n'}));
    Ui.NonBlankMembers(Split(Trim(text), {'\n'}));
    NoBlankLines(lines);
    lines
  }

  /** The lines processed are exactly the non-blank lines of the trimmed
      input; `Ui.NonBlankAppend` keeps them in their order. */
  lemma LinesMembers(text: string)
    ensures forall l :: l in Lines(text) <==> l in Split(Trim(text), {'\n'}) && Trim(l) != []
  {
    Ui.NonBlankMembers(Split(Trim(text), {'\n'}));
  }

  lemma NoBlankLines(lines: seq<string>)
    requires forall l :: l in lines ==> Trim(l) != []
    ensures forall i :: 0 <= i < |lines| ==> !AllSpace(lines[i])
  {
    forall i | 0 <= i < |lines|
      ensures !AllSpace(lines[i])
    {
      assert lines[i] in lines;
      TrimEmptyIffBlank(lines[i]);
    }
  }

  /** What the handler ends with: the alert for blank input, or the saved list
      with the two counts and the error list of the closing message. */
  datatype Outcome = EmptyInput | Imported(words: seq<Word>, successes: nat, failures: nat, errors: seq<ImportError>)

  function ImportWith(words: seq<Word>, text: string, clock: nat -> Stamp, lookupStore: bool): (r: Outcome)
    ensures r.EmptyInput? <==> AllSpace(text)
    ensures r.Imported? ==> r.failures == |r.errors| && r.successes + r.failures <= |Lines(text)|
    ensures r.Imported? ==> ErrorsFit(r.errors, ParseAll(Lines(text)))
  {
    TrimEmptyIffBlank(text);
    if Trim(text) == [] then EmptyInput
    else
      var st := Run(words, Start(words), Lines(text), clock, lookupStore);
      ErrorsNameTheirLines(words, words, Lines(text), clock, lookupStore);
      Imported(st.store, st.successes, st.failures, st.errors)
  }

  /** `UIController.bulkImport` as written. `clock(k)` is what `Date.now()`
      and `toISOString()` read if the `k`-th non-blank line adds a record. */
  function ImportText(words: seq<Word>, text: string, clock: nat -> Stamp): (r: Outcome)
    ensures r.EmptyInput? <==> AllSpace(text)
    ensures r.Imported? ==> r.failures == |r.errors| && r.successes + r.failures <= |Lines(text)|
    ensures r.Imported? && IdsUnique(words) ==>
              && |r.words| >= |words|
              && (forall j :: 0 <= j < |words| ==> Kept(words[j], r.words[j]))
              && NoRepeatsFrom(r.words, |words|)
  {
    if IdsUnique(words) then
      ImportKeepsHistory(words, text, clock, false);
      ImportWith(words, text, clock, false)
    else ImportWith(words, text, clock, false)
  }

  /** The handler with the repeated-spelling lookup made in the current list.
      The closing message then accounts for every non-blank line, and the
      list keeps its history whatever the ids. */
  function ImportTextFixed(words: seq<Word>, text: string, clock: nat -> Stamp): (r: Outcome)
    ensures r.EmptyInput? <==> AllSpace(text)
    ensures r.Imported? ==> r.failures == |r.errors| && r.successes + r.failures == |Lines(text)|
    ensures r.Imported? ==>
              && |r.words| >= |words|
              && (forall j :: 0 <= j < |words| ==> Kept(words[j], r.words[j]))
              && NoRepeatsFrom(r.words, |words|)
  {
    ImportKeepsHistory(words, text, clock, true);
    if AllSpace(text) then ImportWith(words, text, clock, true)
    else
      StartGood(words);
      RunCountsEveryLine(words, Start(words), Lines(text), clock);
      ImportWithIsRun(words, text, clock, true);
      ImportWith(words, text, clock, true)
  }

  /** The error details of the closing message: all of them when there are at
      most five, otherwise the first five. */
  function ShownErrors(errors: seq<ImportError>): (shown: seq<ImportError>)
    ensures shown <= errors
    ensures |shown| == if |errors| <= 5 then |errors| else 5
  {
    if |errors| <= 5 then errors else errors[..5]
  }

  /** The import never loses a stored record or its history and never adds a
      second record for a spelling, ignoring case: the records it started
      from keep their position, id, spelling, creation time and statistics,
      and every record it adds has a spelling no earlier record has. As
      written this needs unique ids among the stored records. */
  lemma ImportKeepsHistory(words: seq<Word>, text: string, clock: nat -> Stamp, lookupStore: bool)
    requires lookupStore || IdsUnique(words)
    ensures var r := ImportWith(words, text, clock, lookupStore);
            r.Imported? ==>
              && |r.words| >= |words|
              && (forall j :: 0 <= j < |words| ==> Kept(words[j], r.words[j]))
              && NoRepeatsFrom(r.words, |words|)
  {
    if !AllSpace(text) {
      ImportWithIsRun(words, text, clock, lookupStore);
      RunFromStartGood(words, Lines(text), clock, lookupStore);
    }
  }

  /** A text that is not blank is imported as the fold over its lines. */
  lemma ImportWithIsRun(words: seq<Word>, text: string, clock: nat -> Stamp, lookupStore: bool)
    requires !AllSpace(text)
    ensures var st := Run(words, Start(words), Lines(text), clock, lookupStore);
            ImportWith(words, text, clock, lookupStore) == Imported(st.store, st.successes, st.failures, st.errors)
  {
    TrimEmptyIffBlank(text);
  }

  /** The fold from the stored list keeps the invariant. */
  lemma RunFromStartGood(words: seq<Word>, lines: seq<string>, clock: nat -> Stamp, lookupStore: bool)
    requires lookupStore || IdsUnique(words)
    ensures Good(words, Run(words, Start(words), lines, clock, lookupStore))
  {
    StartGood(words);
    RunGood(words, Start(words), lines, clock, lookupStore);
  }

  /** The import keeps `practiceCount == correctCount + errorCount` on every record. */
  lemma ImportConsistent(words: seq<Word>, text: string, clock: nat -> Stamp, lookupStore: bool)
    requires AllConsistent(words)
    ensures var r := ImportWith(words, text, clock, lookupStore);
            r.Imported? ==> AllConsistent(r.words)
  {
    if !AllSpace(text) {
      ImportKeepsConsistent(words, Start(words), Lines(text), clock, lookupStore);
    }
  }

  // ---------------------------------------------------------------- a repeated new spelling

  /** A spelling the list does not hold is not found in it. */
  lemma UnknownNotFound(words: seq<Word>, word: string)
    requires ToLower(word) !in Spellings(words)
    ensures Ui.FindSpelling(words, word).None?
  {
    forall j | 0 <= j < |words|
      ensures ToLower(words[j].word) != ToLower(word)
    {
      assert words[j] in words;
    }
  }

  /** Two lines are the two steps of the `forEach`. */
  lemma RunTwo(snapshot: seq<Word>, st: ImportState, a: string, b: string, clock: nat -> Stamp, lookupStore: bool)
    ensures Run(snapshot, st, [a, b], clock, lookupStore) ==
            ImportLine(snapshot, ImportLine(snapshot, st, 0, a, clock(0), lookupStore), 1, b, clock(1), lookupStore)
  {
    assert [a, b][..1] == [a];
    assert [a][..0] == [];
    assert Run(snapshot, st, [a], clock, lookupStore) == ImportLine(snapshot, st, 0, a, clock(0), lookupStore);
  }

  /** A well-formed line is accepted. */
  lemma ImportEntry(snapshot: seq<Word>, st: ImportState, k: nat, line: string, stamp: Stamp, lookupStore: bool)
    requires ParseLine(line).Entry?
    ensures ImportLine(snapshot, st, k, line, stamp, lookupStore) ==
            Accept(snapshot, st, ParseLine(line).word, ParseLine(line).meanings, stamp, lookupStore)
  {
  }

  /** The two accepted lines of a repeated new spelling, as written: the
      first adds the record, the second finds the spelling known but not in
      the snapshot and changes nothing. */
  lemma RepeatAcceptedAsWritten(words: seq<Word>, w: string, first: seq<string>, second: seq<string>,
                                s1: Stamp, s2: Stamp)
    requires ToLower(w) !in Spellings(words)
    ensures var st1 := Accept(words, Start(words), w, first, s1, false);
            && st1.store == words + [AddWord(words, w, first, s1.id, s1.time).record]
            && st1.successes == 1 && st1.failures == 0
            && Accept(words, st1, w, second, s2, false) == st1
  {
    NewSpellingAdded(words, Start(words), w, first, s1, false);
    var st1 := Accept(words, Start(words), w, first, s1, false);
    UnknownNotFound(words, w);
    KnownSpellingLookedUp(words, st1, w, second, s2, false);
  }

  /** The same two lines with the lookup in the current list: the second
      resets the record the first one added. */
  lemma RepeatAcceptedWhenFixed(words: seq<Word>, w: string, first: seq<string>, second: seq<string>,
                                s1: Stamp, s2: Stamp)
    requires Trimmed(w) && ToLower(w) !in Spellings(words)
    ensures Accept(words, Accept(words, Start(words), w, first, s1, true), w, second, s2, true).store ==
            words + [AddWord(words, w, first, s1.id, s1.time).record.(proficiency := InitialProficiency, meanings := second)]
    ensures Accept(words, Accept(words, Start(words), w, first, s1, true), w, second, s2, true).successes == 2
    ensures Accept(words, Accept(words, Start(words), w, first, s1, true), w, second, s2, true).failures == 0
  {
    FirstLineAdded(words, w, first, s1);
    ResetAppended(words, Accept(words, Start(words), w, first, s1, true), AddWord(words, w, first, s1.id, s1.time).record,
                  w, second, s2);
  }

  /** The first line of a spelling the list does not hold appends its record,
      which is found under that spelling, and counts one success. */
  lemma FirstLineAdded(words: seq<Word>, w: string, first: seq<string>, s1: Stamp)
    requires Trimmed(w) && ToLower(w) !in Spellings(words)
    ensures var st1 := Accept(words, Start(words), w, first, s1, true);
            var rec := AddWord(words, w, first, s1.id, s1.time).record;
            && st1.store == words + [rec] && ToLower(w) in st1.known && ToLower(rec.word) == ToLower(w)
            && st1.successes == 1 && st1.failures == 0
  {
    NewSpellingAdded(words, Start(words), w, first, s1, true);
    AddedSpelling(words, w, first, s1);
  }

  /** A spelling known only from the record appended last is reset there
      when looked up in the current list. */
  lemma ResetAppended(words: seq<Word>, st: ImportState, rec: Word, w: string, meanings: seq<string>, stamp: Stamp)
    requires st.store == words + [rec] && ToLower(w) in st.known
    requires ToLower(w) !in Spellings(words) && ToLower(rec.word) == ToLower(w)
    ensures var r := Accept(words, st, w, meanings, stamp, true);
            && r.store == words + [rec.(proficiency := InitialProficiency, meanings := meanings)]
            && r.successes == st.successes + 1 && r.failures == st.failures
  {
    UnknownNotFound(words, w);
    FindSpellingAfter(words, rec, w);
    ResetFound(words, st, w, meanings, stamp, |words|);
    assert (words + [rec])[|words| := rec.(proficiency := InitialProficiency, meanings := meanings)] ==
           words + [rec.(proficiency := InitialProficiency, meanings := meanings)];
  }

  /** As written, a second line for a spelling that the same import added is
      dropped: it counts neither as a success nor as a failure, and the
      record keeps the first line's meanings. */
  lemma RepeatDroppedAsWritten(words: seq<Word>, w: string, first: seq<string>, second: seq<string>,
                               clock: nat -> Stamp)
    requires Writable(w, first) && Writable(w, second) && ToLower(w) !in Spellings(words)
    ensures var r := Run(words, Start(words), [Format(w, first), Format(w, second)], clock, false);
            && r.successes == 1 && r.failures == 0
            && r.store == words + [AddWord(words, w, first, clock(0).id, clock(0).time).record]
  {
    var a, b := Format(w, first), Format(w, second);
    var s1, s2 := clock(0), clock(1);
    RunTwo(words, Start(words), a, b, clock, false);
    ParseFormat(w, first);
    ParseFormat(w, second);
    ImportEntry(words, Start(words), 0, a, s1, false);
    var st1 := ImportLine(words, Start(words), 0, a, s1, false);
    ImportEntry(words, st1, 1, b, s2, false);
    RepeatAcceptedAsWritten(words, w, first, second, s1, s2);
  }

  /** With the lookup in the current list, the second line resets the record
      the first one added, and both lines count. */
  lemma RepeatResetWhenFixed(words: seq<Word>, w: string, first: seq<string>, second: seq<string>,
                             clock: nat -> Stamp)
    requires Writable(w, first) && Writable(w, second) && ToLower(w) !in Spellings(words)
    ensures var r := Run(words, Start(words), [Format(w, first), Format(w, second)], clock, true);
            var rec := AddWord(words, w, first, clock(0).id, clock(0).time).record;
            && r.successes == 2 && r.failures == 0
            && r.store == words + [rec.(proficiency := InitialProficiency, meanings := second)]
  {
    var a, b := Format(w, first), Format(w, second);
    var s1, s2 := clock(0), clock(1);
    RunTwo(words, Start(words), a, b, clock, true);
    ParseFormat(w, first);
    ParseFormat(w, second);
    ImportEntry(words, Start(words), 0, a, s1, true);
    var st1 := ImportLine(words, Start(words), 0, a, s1, true);
    ImportEntry(words, st1, 1, b, s2, true);
    RepeatAcceptedWhenFixed(words, w, first, second, s1, s2);
  }

  /** With the lookup in the current list, a known spelling found at `i` is
      reset there. */
  lemma ResetFound(snapshot: seq<Word>, st: ImportState, word: string, meanings: seq<string>, stamp: Stamp, i: nat)
    requires ToLower(word) in st.known && Ui.FindSpelling(st.store, word) == Some(i)
    ensures Accept(snapshot, st, word, meanings, stamp, true) ==
            st.(store := st.store[i := st.store[i].(proficiency := InitialProficiency, meanings := meanings)],
                successes := st.successes + 1)
  {
    AcceptKnown(snapshot, st, word, meanings, stamp);
  }

  /** With the store looked up, a known spelling takes the lookup's branch. */
  lemma AcceptKnown(snapshot: seq<Word>, st: ImportState, word: string, meanings: seq<string>, stamp: Stamp)
    requires ToLower(word) in st.known
    ensures Accept(snapshot, st, word, meanings, stamp, true) ==
            match Ui.FindSpelling(st.store, word)
            case None => st
            case Some(i) =>
              st.(store := st.store[i := st.store[i].(proficiency := InitialProficiency, meanings := meanings)],
                  successes := st.successes + 1)
  {
  }

  /** Looking up the spelling of a record appended to a list that does not
      hold it finds the appended record. */
  lemma FindSpellingAfter(words: seq<Word>, rec: Word, word: string)
    requires Ui.FindSpelling(words, word).None? && ToLower(rec.word) == ToLower(word)
    ensures Ui.FindSpelling(words + [rec], word) == Some(|words|)
  {
    var all := words + [rec];
    assert all[|words|] == rec;
    assert forall j :: 0 <= j < |words| ==> all[j] == words[j];
  }

  /** `apple red` followed by `apple green`, imported into a list without
      "apple", is an instance of the two repeat lemmas above. */
  lemma AppleTwice()
    ensures Writable("apple", ["red"]) && Writable("apple", ["green"])
    ensures Format("apple", ["red"]) == "apple red" && Format("apple", ["green"]) == "apple green"
    ensures ToLower("apple") !in Spellings([])
  {
  }
}


=== FILE: practice.dfy ===
/**
 The `PracticeManager` class: the drill session. It picks the next word from
 the weakest part of the list, checks typed input against it, and scores a
 submitted answer. The two `Math.random()` draws are passed in as the
 indices they produce.
 */
module Practice {
  import opened Vocab
  import opened Text
  import opened Storage

  /** How many of the weakest words the next word is drawn from. */
  const PoolSize: int := 20

  /** Consecutive wrong answers after which the answer is shown. */
  const RevealThreshold: nat := 5

  datatype Mode = Audio | Chinese

  /** Which drill modes the learner ticked. */
  datatype Modes = Modes(audio: bool, chinese: bool)

  datatype Session = Session(
    currentWord: Option<Word>,
    currentMode: Option<Mode>,
    consecutiveErrors: nat,
    currentInput: string,
    errorRecorded: bool,
    enabledModes: Modes)

  /** The state `new PracticeManager()` starts in. */
  function NewSession(): (s: Session)
    ensures s.currentWord.None? && s.currentMode.None?
    ensures s.consecutiveErrors == 0 && !s.errorRecorded
    ensures s.enabledModes.audio && s.enabledModes.chinese
  {
    Session(None, None, 0, "", false, Modes(true, true))
  }

  /** The modes on offer, audio first, each present exactly when enabled. */
  function AvailableModes(m: Modes): (r: seq<Mode>)
    ensures Audio in r <==> m.audio
    ensures Chinese in r <==> m.chinese
    ensures |r| == (if m.audio then 1 else 0) + (if m.chinese then 1 else 0)
  {
    (if m.audio then [Audio] else []) + (if m.chinese then [Chinese] else [])
  }

  /** With no mode enabled, audio is switched back on so that there is always
      something to offer. */
  function WithFallback(m: Modes): (r: Modes)
    ensures |AvailableModes(r)| >= 1
    ensures m.audio || m.chinese ==> r == m
    ensures !m.audio && !m.chinese ==> r == Modes(true, false)
  {
    if !m.audio && !m.chinese then m.(audio := true) else m
  }

  datatype Choice = Choice(word: Word, mode: Mode)

  /** The session after `getNextWord`, and what it returned (`null` as `None`). */
  datatype Next = Next(session: Session, choice: Option<Choice>)

  /** `PracticeManager.getNextWord`. `wordPick` is
      `Math.floor(Math.random() * pool.length)` and `modePick` the same over
      the offered modes. */
  function GetNextWord(words: seq<Word>, s: Session, wordPick: nat, modePick: nat): (r: Next)
    requires |words| == 0 || wordPick < |GetLowestProficiencyWords(words, PoolSize)|
    requires modePick < |AvailableModes(WithFallback(s.enabledModes))|
    ensures r.choice.None? <==> |words| == 0
    ensures r.choice.None? ==> r.session == s
    ensures r.choice.Some? ==>
              && r.choice.value.word in GetLowestProficiencyWords(words, PoolSize)
              && r.choice.value.mode in AvailableModes(r.session.enabledModes)
              && r.session == Session(Some(r.choice.value.word), Some(r.choice.value.mode), 0, "", false,
                                      r.session.enabledModes)
  {
    var pool := GetLowestProficiencyWords(words, PoolSize);
    if |pool| == 0 then Next(s, None)
    else
      var modes := WithFallback(s.enabledModes);
      var word := pool[wordPick];
      var mode := AvailableModes(modes)[modePick];
      Next(Session(Some(word), Some(mode), 0, "", false, modes), Some(Choice(word, mode)))
  }

  /** The drawn mode honours the switches; with both off, audio is switched
      back on and drawn. */
  lemma NextModeHonoursSwitches(words: seq<Word>, s: Session, wordPick: nat, modePick: nat)
    requires |words| == 0 || wordPick < |GetLowestProficiencyWords(words, PoolSize)|
    requires modePick < |AvailableModes(WithFallback(s.enabledModes))|
    requires GetNextWord(words, s, wordPick, modePick).choice.Some?
    ensures var r := GetNextWord(words, s, wordPick, modePick);
            && (s.enabledModes.audio || s.enabledModes.chinese ==> r.session.enabledModes == s.enabledModes)
            && (!s.enabledModes.audio && !s.enabledModes.chinese ==>
                  r.session.enabledModes == Modes(true, false) && r.choice.value.mode == Audio)
  {
    var r := GetNextWord(words, s, wordPick, modePick);
    assert r.session.enabledModes == WithFallback(s.enabledModes);
  }

  /** The word drawn is one of the stored words, and no stored word outside
      the pool is weaker than it. */
  lemma NextWordIsWeak(words: seq<Word>, s: Session, wordPick: nat, modePick: nat)
    requires |words| == 0 || wordPick < |GetLowestProficiencyWords(words, PoolSize)|
    requires modePick < |AvailableModes(WithFallback(s.enabledModes))|
    requires GetNextWord(words, s, wordPick, modePick).choice.Some?
    ensures var w := GetNextWord(words, s, wordPick, modePick).choice.value.word;
            var pool := GetLowestProficiencyWords(words, PoolSize);
            && w in words
            && forall o <- multiset(words) - multiset(pool) :: w.proficiency <= o.proficiency
  {
    var w := GetNextWord(words, s, wordPick, modePick).choice.value.word;
    var pool := GetLowestProficiencyWords(words, PoolSize);
    assert w in multiset(pool);
  }

  /** Feedback line shown next to the input. */
  datatype Feedback = Right | KeepTyping | Misspelt

  datatype Validation = Validation(isComplete: bool, isCorrect: bool, feedback: Feedback)

  /** The learner's input as it is compared: `input.toLowerCase().trim()`. */
  function Typed(input: string): (t: string)
    ensures Trimmed(t) && |t| <= |input|
  {
    Trim(ToLower(input))
  }

  /** Lower-casing before trimming, as the source does, is the same as
      trimming first: the compared text is the lower-cased trim. */
  lemma TypedLowerTrim(input: string)
    ensures Typed(input) == ToLower(Trim(input))
  {
    LowerTrimCommute(input);
  }

  /** `PracticeManager.validateInput`: complete when the typed text equals the
      lower-cased target, still correct while it is a prefix of it (the empty
      text included), wrong otherwise. */
  function ValidateInput(s: Session, input: string): (v: Validation)
    requires s.currentWord.Some?
    ensures v.isComplete <==> Typed(input) == ToLower(s.currentWord.value.word)
    ensures v.isCorrect <==> Typed(input) <= ToLower(s.currentWord.value.word)
    ensures v.isComplete ==> v.isCorrect
    ensures v.feedback == (if v.isComplete then Right else if v.isCorrect then KeepTyping else Misspelt)
  {
    var typed := Typed(input);
    var target := ToLower(s.currentWord.value.word);
    if typed == target then Validation(true, true, Right)
    else if typed <= target then Validation(false, true, KeepTyping)
    else Validation(false, false, Misspelt)
  }

  /** Blank input is never wrong: it is a prefix of every target. */
  lemma BlankInputIsOnTrack(s: Session, input: string)
    requires s.currentWord.Some?
    requires AllSpace(input)
    ensures ValidateInput(s, input).isCorrect
  {
    TrimEmptyIffBlank(input);
  }

  /** What `submitAnswer` returns. */
  datatype Answer = Answer(isCorrect: bool, consecutiveErrors: nat, shouldShowAnswer: bool, correctWord: string)

  /** The outcome of `submitAnswer`: the saved list, the session and the
      answer; or `Missing` when the current word is no longer stored, where
      the source throws before changing anything. */
  datatype Submission = Submitted(words: seq<Word>, session: Session, answer: Answer) | Missing

  /** One practice recorded on a stored record: one more practice, the
      proficiency and the matching counter moved by one, the time stamped;
      nothing else touched. */
  predicate Practised(before: Word, after: Word, correct: bool, now: Timestamp) {
    && after.id == before.id && after.word == before.word
    && after.meanings == before.meanings && after.addedTime == before.addedTime
    && after.proficiency == before.proficiency + (if correct then 1 else -1)
    && after.stats.practiceCount == before.stats.practiceCount + 1
    && after.stats.correctCount == before.stats.correctCount + (if correct then 1 else 0)
    && after.stats.errorCount == before.stats.errorCount + (if correct then 0 else 1)
    && after.stats.lastPracticeTime == Some(now)
  }

  /** The stored record scored once. */
  function Score(w: Word, correct: bool, now: Timestamp): (r: Word)
    ensures Practised(w, r, correct, now)
  {
    var st := w.stats.(practiceCount := w.stats.practiceCount + 1, lastPracticeTime := Some(now));
    if correct then w.(proficiency := w.proficiency + 1, stats := st.(correctCount := st.correctCount + 1))
    else w.(proficiency := w.proficiency - 1, stats := st.(errorCount := st.errorCount + 1))
  }

  /** `PracticeManager.submitAnswer`: the stored record of the current word is
      scored and saved, the consecutive-error count is cleared or advanced,
      and the answer is to be shown from the fifth consecutive error on. */
  function SubmitAnswer(words: seq<Word>, s: Session, input: string, now: Timestamp): (r: Submission)
    requires s.currentWord.Some?
    ensures r.Missing? <==> GetWordById(words, s.currentWord.value.id).None?
    ensures r.Submitted? ==>
              var i := FindIndex(words, s.currentWord.value.id).value;
              var correct := Typed(input) == ToLower(s.currentWord.value.word);
              && r.answer.isCorrect == correct
              && |r.words| == |words|
              && Practised(words[i], r.words[i], correct, now)
              && (forall j :: 0 <= j < |words| && j != i ==> r.words[j] == words[j])
              && r.session == s.(consecutiveErrors := r.answer.consecutiveErrors)
              && r.answer.consecutiveErrors == (if correct then 0 else s.consecutiveErrors + 1)
              && (r.answer.shouldShowAnswer <==> r.answer.consecutiveErrors >= RevealThreshold)
              && r.answer.correctWord == ToLower(s.currentWord.value.word)
  {
    var target := ToLower(s.currentWord.value.word);
    var correct := Typed(input) == target;
    match GetWordById(words, s.currentWord.value.id)
    case None => Missing
    case Some(w) =>
      var errors := if correct then 0 else s.consecutiveErrors + 1;
      var saved := UpdateWord(words, w.id, Whole(Score(w, correct, now)));
      MergeWhole(w, Score(w, correct, now));
      Submitted(saved.words, s.(consecutiveErrors := errors),
                Answer(correct, errors, errors >= RevealThreshold, target))
  }

  /** Scoring keeps `practiceCount == correctCount + errorCount`, on the record
      and on the whole list. */
  lemma SubmitKeepsConsistent(words: seq<Word>, s: Session, input: string, now: Timestamp)
    requires s.currentWord.Some?
    requires AllConsistent(words)
    ensures var r := SubmitAnswer(words, s, input, now);
            r.Submitted? ==> AllConsistent(r.words)
  {
    var r := SubmitAnswer(words, s, input, now);
    if r.Submitted? {
      var i := FindIndex(words, s.currentWord.value.id).value;
      assert Consistent(words[i].stats);
    }
  }

  /** `PracticeManager.resetErrors`: only the consecutive-error count changes. */
  function ResetErrors(s: Session): (r: Session)
    ensures r.consecutiveErrors == 0
    ensures r.(consecutiveErrors := s.consecutiveErrors) == s
  {
    s.(consecutiveErrors := 0)
  }

  /** `PracticeManager.setEnabledModes`: only the enabled modes change. */
  function SetEnabledModes(s: Session, audio: bool, chinese: bool): (r: Session)
    ensures AvailableModes(r.enabledModes) ==
            (if audio then [Audio] else []) + (if chinese then [Chinese] else [])
    ensures r.(enabledModes := s.enabledModes) == s
  {
    s.(enabledModes := Modes(audio, chinese))
  }
}

=== FILE: storage.dfy ===
/**
 The `Storage` class: the collection operations over the saved word list.
 The list read from and written back to the browser's storage is passed in
 and returned as a value.
 */
module Storage {
  import opened Vocab
  import opened Text

  /** Proficiency every new word starts with. */
  const InitialProficiency: int := -100

  /** The result of `addWord`: the list to save and the record created. */
  datatype Added = Added(words: seq<Word>, record: Word)

  /** `meanings.map(m => m.trim())`. */
  function TrimAll(ms: seq<string>): (r: seq<string>)
    ensures |r| == |ms|
    ensures forall i :: 0 <= i < |ms| ==> r[i] == Trim(ms[i]) && Trimmed(r[i])
  {
    seq(|ms|, i requires 0 <= i < |ms| => Trim(ms[i]))
  }

  /** Every piece gives its trimmed text, and every trimmed text comes from
      a piece. */
  lemma TrimAllMembers(ms: seq<string>)
    ensures forall p :: p in ms ==> Trim(p) in TrimAll(ms)
    ensures forall m :: m in TrimAll(ms) ==> exists p :: p in ms && m == Trim(p)
  {
    var r := TrimAll(ms);
    forall p | p in ms
      ensures Trim(p) in r
    {
      var i :| 0 <= i < |ms| && ms[i] == p;
      assert r[i] == Trim(p);
    }
    forall m | m in r
      ensures exists p :: p in ms && m == Trim(p)
    {
      var i :| 0 <= i < |r| && r[i] == m;
      assert ms[i] in ms;
    }
  }

  /** `Storage.addWord`: a new record with the normalised spelling, trimmed
      meanings, the initial proficiency and empty statistics, appended at the
      end. The clock-derived id and creation time are parameters. */
  function AddWord(words: seq<Word>, word: string, meanings: seq<string>, id: string, now: Timestamp): (r: Added)
    ensures r.words == words + [r.record]
    ensures r.record.id == id && r.record.addedTime == now
    ensures Trimmed(r.record.word) && IsLower(r.record.word)
    ensures r.record.meanings == TrimAll(meanings)
    ensures r.record.proficiency == -100
    ensures r.record.stats == Stats(0, 0, 0, None)
  {
    var spelling := Trim(ToLower(word));
    var record := Word(id, spelling, TrimAll(meanings), InitialProficiency, now, Stats(0, 0, 0, None));
    Added(words + [record], record)
  }

  /** The stored spelling is the trimmed spelling lower-cased: lower-casing
      first and trimming after, as `addWord` does, comes to the same. */
  lemma AddWordSpelling(words: seq<Word>, word: string, meanings: seq<string>, id: string, now: Timestamp)
    ensures AddWord(words, word, meanings, id, now).record.word == ToLower(Trim(word))
  {
    LowerTrimCommute(word);
  }

  /** `words.findIndex(w => w.id === id)`: the first position holding `id`. */
  function FindIndex(words: seq<Word>, id: string): (r: Option<nat>)
    ensures r.Some? ==> r.value < |words| && words[r.value].id == id
    ensures r.Some? ==> forall j :: 0 <= j < r.value ==> words[j].id != id
    ensures r.None? <==> forall j :: 0 <= j < |words| ==> words[j].id != id
  {
    if |words| == 0 then None
    else if words[0].id == id then Some(0)
    else match FindIndex(words[1..], id)
      case None => None
      case Some(k) => Some(k + 1)
  }

  /** No two records share an id. Ids come from the millisecond clock and are
      not checked against the list, so nothing guarantees this; lemmas require it
      only where stated. */
  predicate IdsUnique(words: seq<Word>) {
    forall i, j :: 0 <= i < j < |words| ==> words[i].id != words[j].id
  }

  /** With unique ids, looking a record's id up finds that very record. */
  lemma FindIndexUnique(words: seq<Word>, i: nat)
    requires IdsUnique(words) && i < |words|
    ensures FindIndex(words, words[i].id) == Some(i)
  {
  }

  /** `Storage.getWordById`: the first record with that id, if any. */
  function GetWordById(words: seq<Word>, id: string): (r: Option<Word>)
    ensures r.Some? ==> r.value in words && r.value.id == id
    ensures r.None? <==> forall w <- words :: w.id != id
    ensures r.Some? ==> FindIndex(words, id).Some? && r.value == words[FindIndex(words, id).value]
  {
    match FindIndex(words, id)
    case None => None
    case Some(i) => Some(words[i])
  }

  /** The result of `updateWord`: the list to save and the merged record
      (`null` when the id is absent). */
  datatype Updated = Updated(words: seq<Word>, record: Option<Word>)

  /** `Storage.updateWord`: the first record with `id` becomes the shallow
      merge of itself and `updates`; every other position is untouched. On an
      absent id nothing changes and `null` comes back. */
  function UpdateWord(words: seq<Word>, id: string, updates: Patch): (r: Updated)
    ensures |r.words| == |words|
    ensures r.record.None? <==> forall w <- words :: w.id != id
    ensures r.record.None? ==> r.words == words
    ensures r.record.Some? ==>
              exists i :: 0 <= i < |words| && words[i].id == id
                && (forall j :: 0 <= j < i ==> words[j].id != id)
                && r.words[i] == r.record.value == Merge(words[i], updates)
                && (forall j :: 0 <= j < |words| && j != i ==> r.words[j] == words[j])
  {
    match FindIndex(words, id)
    case None => Updated(words, None)
    case Some(i) =>
      var merged := Merge(words[i], updates);
      Updated(words[i := merged], Some(merged))
  }

  /** `Storage.deleteWord`: `words.filter(w => w.id !== id)`. */
  function DeleteWord(words: seq<Word>, id: string): (r: seq<Word>)
    ensures |r| <= |words|
  {
    if |words| == 0 then []
    else if words[0].id == id then DeleteWord(words[1..], id)
    else [words[0]] + DeleteWord(words[1..], id)
  }

  /** Exactly the records with another id survive a delete. */
  lemma {:induction false} DeleteMembers(words: seq<Word>, id: string)
    ensures forall w :: w in DeleteWord(words, id) <==> w in words && w.id != id
    decreases |words|
  {
    if |words| > 0 {
      DeleteMembers(words[1..], id);
      assert words == [words[0]] + words[1..];
    }
  }

  /** Deleting an absent id leaves the list as it was. */
  lemma {:induction false} DeleteAbsent(words: seq<Word>, id: string)
    requires forall w <- words :: w.id != id
    ensures DeleteWord(words, id) == words
    decreases |words|
  {
    if |words| > 0 {
      assert words[0] in words;
      assert forall w <- words[1..] :: w in words;
      DeleteAbsent(words[1..], id);
      assert words == [words[0]] + words[1..];
    }
  }

  /** Deleting keeps the survivors in their original order: it acts on a
      concatenation piece by piece. */
  lemma {:induction false} DeleteConcat(a: seq<Word>, b: seq<Word>, id: string)
    ensures DeleteWord(a + b, id) == DeleteWord(a, id) + DeleteWord(b, id)
    decreases |a|
  {
    if |a| == 0 {
      assert a + b == b;
    } else {
      var h := if a[0].id == id then [] else [a[0]];
      calc {
        DeleteWord(a + b, id);
        { assert (a + b)[0] == a[0] && (a + b)[1..] == a[1..] + b; }
        h + DeleteWord(a[1..] + b, id);
        { DeleteConcat(a[1..], b, id); }
        h + (DeleteWord(a[1..], id) + DeleteWord(b, id));
        (h + DeleteWord(a[1..], id)) + DeleteWord(b, id);
      }
    }
  }

  /** After a delete, no record answers to the deleted id. */
  lemma DeleteThenLookup(words: seq<Word>, id: string)
    ensures GetWordById(DeleteWord(words, id), id) == None
  {
    DeleteMembers(words, id);
  }

  predicate SortedByProficiency(s: seq<Word>) {
    forall i, j :: 0 <= i < j < |s| ==> s[i].proficiency <= s[j].proficiency
  }

  /** Places `w` before the first element whose proficiency is not below its own. */
  function Insert(w: Word, s: seq<Word>): (r: seq<Word>)
    requires SortedByProficiency(s)
    ensures SortedByProficiency(r)
    ensures forall x <- r :: x in s || x == w
    ensures multiset(r) == multiset(s) + multiset{w}
    ensures |r| == |s| + 1
  {
    if |s| == 0 || w.proficiency <= s[0].proficiency then
      BelowHead(w, s);
      SortedCons(w, s);
      [w] + s
    else
      var rest := Insert(w, s[1..]);
      assert s == [s[0]] + s[1..];
      assert forall x <- rest :: s[0].proficiency <= x.proficiency;
      SortedCons(s[0], rest);
      assert multiset([s[0]] + rest) == multiset{s[0]} + multiset(rest);
      [s[0]] + rest
  }

  /** A sorted list stays sorted under a head no greater than any element. */
  lemma SortedCons(h: Word, s: seq<Word>)
    requires SortedByProficiency(s) && forall x <- s :: h.proficiency <= x.proficiency
    ensures SortedByProficiency([h] + s)
  {
    var r := [h] + s;
    forall i, j | 0 <= i < j < |r|
      ensures r[i].proficiency <= r[j].proficiency
    {
      if i == 0 {
        assert r[j] == s[j - 1] && s[j - 1] in s;
      } else {
        assert r[i] == s[i - 1] && r[j] == s[j - 1];
      }
    }
  }

  /** In a sorted list, a value no greater than the head is no greater than
      any element. */
  lemma BelowHead(h: Word, s: seq<Word>)
    requires SortedByProficiency(s) && (s == [] || h.proficiency <= s[0].proficiency)
    ensures forall x <- s :: h.proficiency <= x.proficiency
  {
    forall x <- s
      ensures h.proficiency <= x.proficiency
    {
      var k :| 0 <= k < |s| && s[k] == x;
    }
  }

  /** The array sort with comparator `(a, b) => a.proficiency - b.proficiency`:
      ascending by proficiency, and stable (ties keep their order, see
      `SortStable`). */
  function SortByProficiency(s: seq<Word>): (r: seq<Word>)
    ensures SortedByProficiency(r)
    ensures multiset(r) == multiset(s) && |r| == |s|
  {
    if |s| == 0 then []
    else
      assert s == [s[0]] + s[1..];
      Insert(s[0], SortByProficiency(s[1..]))
  }

  /** The records of one proficiency, in order. */
  function WithProficiency(s: seq<Word>, p: int): seq<Word> {
    if |s| == 0 then []
    else (if s[0].proficiency == p then [s[0]] else []) + WithProficiency(s[1..], p)
  }

  lemma {:induction false} WithProficiencyConcat(a: seq<Word>, b: seq<Word>, p: int)
    ensures WithProficiency(a + b, p) == WithProficiency(a, p) + WithProficiency(b, p)
    decreases |a|
  {
    if |a| == 0 {
      assert a + b == b;
    } else {
      var h := if a[0].proficiency == p then [a[0]] else [];
      calc {
        WithProficiency(a + b, p);
        { assert (a + b)[0] == a[0] && (a + b)[1..] == a[1..] + b; }
        h + WithProficiency(a[1..] + b, p);
        { WithProficiencyConcat(a[1..], b, p); }
        h + (WithProficiency(a[1..], p) + WithProficiency(b, p));
        (h + WithProficiency(a[1..], p)) + WithProficiency(b, p);
      }
    }
  }

  lemma {:induction false} InsertStable(w: Word, s: seq<Word>, p: int)
    requires SortedByProficiency(s)
    ensures WithProficiency(Insert(w, s), p) == WithProficiency([w], p) + WithProficiency(s, p)
    decreases |s|
  {
    if |s| == 0 || w.proficiency <= s[0].proficiency {
      WithProficiencyConcat([w], s, p);
    } else {
      var rest := Insert(w, s[1..]);
      InsertStable(w, s[1..], p);
      WithProficiencyConcat([s[0]], rest, p);
      WithProficiencyConcat([s[0]], s[1..], p);
      assert s == [s[0]] + s[1..];
      if w.proficiency == p {
        assert s[0].proficiency != p;
      }
    }
  }

  /** Stability: among records of equal proficiency the sort keeps the order
      they had in the stored list (ECMAScript 2019 requires `sort` to be
      stable). */
  lemma {:induction false} SortStable(s: seq<Word>, p: int)
    ensures WithProficiency(SortByProficiency(s), p) == WithProficiency(s, p)
    decreases |s|
  {
    if |s| > 0 {
      SortStable(s[1..], p);
      InsertStable(s[0], SortByProficiency(s[1..]), p);
      WithProficiencyConcat([s[0]], s[1..], p);
      assert s == [s[0]] + s[1..];
    }
  }

  /** The end index `Array.prototype.slice(0, n)` uses: a negative `n`
      counts back from the end. */
  function SliceEnd(len: nat, n: int): (e: nat)
    ensures e <= len
    ensures n >= 0 ==> e == if n < len then n else len
    ensures n < 0 ==> e == if len + n > 0 then len + n else 0
  {
    if n >= 0 then (if n < len then n else len)
    else if len + n > 0 then len + n else 0
  }

  /** In a sorted list, everything from position `e` on is at least every
      proficiency before `e`. */
  lemma SplitSorted(sorted: seq<Word>, e: nat)
    requires SortedByProficiency(sorted) && e <= |sorted|
    ensures forall w <- multiset(sorted[e..]), v <- sorted[..e] :: v.proficiency <= w.proficiency
  {
    forall w <- multiset(sorted[e..]), v <- sorted[..e]
      ensures v.proficiency <= w.proficiency
    {
      var a :| 0 <= a < e && sorted[..e][a] == v;
      var b :| 0 <= b < |sorted| - e && sorted[e..][b] == w;
      assert sorted[a] == v && sorted[e + b] == w;
    }
  }

  /** `Storage.getLowestProficiencyWords(n)`: sort ascending by proficiency,
      keep the first `n`. */
  function GetLowestProficiencyWords(words: seq<Word>, n: int): (r: seq<Word>)
    ensures n >= 0 ==> |r| == if n < |words| then n else |words|
    ensures SortedByProficiency(r)
    ensures multiset(r) <= multiset(words)
    ensures forall w <- multiset(words) - multiset(r) ::
              forall v <- r :: v.proficiency <= w.proficiency
  {
    var sorted := SortByProficiency(words);
    var e := SliceEnd(|words|, n);
    PrefixOfSorted(words, sorted, e);
    sorted[..e]
  }

  /** A prefix of a sorted arrangement of `words` is sorted, is drawn from
      `words`, and is at the low end of it. */
  lemma PrefixOfSorted(words: seq<Word>, sorted: seq<Word>, e: nat)
    requires SortedByProficiency(sorted) && multiset(sorted) == multiset(words) && e <= |sorted|
    ensures SortedByProficiency(sorted[..e])
    ensures multiset(sorted[..e]) <= multiset(words)
    ensures forall w <- multiset(words) - multiset(sorted[..e]) ::
              forall v <- sorted[..e] :: v.proficiency <= w.proficiency
  {
    assert sorted == sorted[..e] + sorted[e..];
    assert multiset(words) == multiset(sorted[..e]) + multiset(sorted[e..]);
    assert multiset(words) - multiset(sorted[..e]) == multiset(sorted[e..]);
    SplitSorted(sorted, e);
  }

  /** The statistics invariant holds of the whole list after each store
      operation whose input records keep it. */
  lemma AddKeepsConsistent(words: seq<Word>, w: string, ms: seq<string>, id: string, now: Timestamp)
    requires AllConsistent(words)
    ensures AllConsistent(AddWord(words, w, ms, id, now).words)
  {
    var a := AddWord(words, w, ms, id, now);
    AppendConsistent(words, a.record);
  }

  lemma AppendConsistent(words: seq<Word>, w: Word)
    requires AllConsistent(words) && Consistent(w.stats)
    ensures AllConsistent(words + [w])
  {
  }

  lemma UpdateKeepsConsistent(words: seq<Word>, id: string, updates: Patch)
    requires AllConsistent(words)
    requires updates.stats.Some? ==> Consistent(updates.stats.value)
    ensures AllConsistent(UpdateWord(words, id, updates).words)
  {
  }

  lemma DeleteKeepsConsistent(words: seq<Word>, id: string)
    requires AllConsistent(words)
    ensures AllConsistent(DeleteWord(words, id))
  {
    var d := DeleteWord(words, id);
    DeleteMembers(words, id);
    forall i | 0 <= i < |d| ensures Consistent(d[i].stats) {
      assert d[i] in words;
    }
  }
}

=== FILE: text.dfy ===
/**
 The string primitives the vocabulary drill relies on: JavaScript's
 `String.prototype.trim`, `toLowerCase`, `startsWith` and `split`, over
 strings as sequences of characters.
 */
module Text {
  /** A non-empty sequence is its first element followed by the rest. */
  lemma HeadRest<T>(s: seq<T>)
    requires |s| > 0
    ensures [s[0]] + s[1..] == s
  {
  }

  /** Concatenation is associative. */
  lemma ConcatAssoc<T>(a: seq<T>, b: seq<T>, c: seq<T>)
    ensures a + (b + c) == (a + b) + c
  {
  }

  /** Appending one element keeps the earlier indices and puts it last. */
  lemma AppendAt<T>(a: seq<T>, x: T, i: nat)
    requires i <= |a|
    ensures (a + [x])[i] == if i < |a| then a[i] else x
  {}

  /** `f` applied to each element, in order. */
  function Map<A, B>(f: A -> B, s: seq<A>): (r: seq<B>)
    ensures |r| == |s|
    decreases |s|
  {
    if |s| == 0 then [] else Map(f, s[..|s| - 1]) + [f(s[|s| - 1])]
  }

  /** The `i`-th result is `f` of the `i`-th element. */
  lemma {:induction false} MapAt<A, B>(f: A -> B, s: seq<A>, i: nat)
    requires i < |s|
    ensures Map(f, s)[i] == f(s[i])
    decreases |s|
  {
    var init := s[..|s| - 1];
    AppendAt(Map(f, init), f(s[|s| - 1]), i);
    if i < |init| {
      MapAt(f, init, i);
      assert init[i] == s[i];
    }
  }

  /** A concatenation with a non-empty first part starts like that part. */
  lemma ConcatRest<T>(a: seq<T>, b: seq<T>)
    requires |a| > 0
    ensures (a + b)[0] == a[0] && (a + b)[1..] == a[1..] + b
  {
  }

  /** The characters `trim` removes: the WhiteSpace and LineTerminator
      code points of section 12.2 and 12.3 of ECMA-262 (tab, the line breaks,
      vertical tab, form feed, space, no-break space, the Unicode space
      separators, the line/paragraph separators and the byte order mark). */
  predicate IsSpace(c: char) {
    || c == '\t' || c == '\n' || c == '\U{B}' || c == '\U{C}' || c == '\r' || c == ' '
    || c == '\U{A0}' || c == '\U{1680}' || ('\U{2000}' <= c <= '\U{200A}')
    || c == '\U{2028}' || c == '\U{2029}' || c == '\U{202F}' || c == '\U{205F}'
    || c == '\U{3000}' || c == '\U{FEFF}'
  }

  predicate AllSpace(s: string) {
    forall i :: 0 <= i < |s| ==> IsSpace(s[i])
  }

  /** No white space at either end: the shape every result of `Trim` has. */
  predicate Trimmed(s: string) {
    s == [] || (!IsSpace(s[0]) && !IsSpace(s[|s| - 1]))
  }

  /** How many white-space characters `s` starts with. */
  function LeadingSpaces(s: string): (n: nat)
    ensures n <= |s|
    ensures forall i :: 0 <= i < n ==> IsSpace(s[i])
    ensures n < |s| ==> !IsSpace(s[n])
  {
    if |s| > 0 && IsSpace(s[0]) then 1 + LeadingSpaces(s[1..]) else 0
  }

  /** How many white-space characters `s` ends with. */
  function TrailingSpaces(s: string): (n: nat)
    ensures n <= |s|
    ensures forall i :: |s| - n <= i < |s| ==> IsSpace(s[i])
    ensures n < |s| ==> !IsSpace(s[|s| - 1 - n])
  {
    if |s| > 0 && IsSpace(s[|s| - 1]) then 1 + TrailingSpaces(s[..|s| - 1]) else 0
  }

  /** `trimStart`: drops the leading white space and keeps the rest verbatim. */
  function TrimStart(s: string): (r: string)
    ensures |r| <= |s| && r == s[|s| - |r|..]
    ensures AllSpace(s[..|s| - |r|])
    ensures r == [] || !IsSpace(r[0])
  {
    s[LeadingSpaces(s)..]
  }

  /** `trimEnd`: drops the trailing white space and keeps the rest verbatim. */
  function TrimEnd(s: string): (r: string)
    ensures |r| <= |s| && r == s[..|r|]
    ensures AllSpace(s[|r|..])
    ensures r == [] || !IsSpace(r[|r| - 1])
  {
    s[..|s| - TrailingSpaces(s)]
  }

  /** `trim`: both ends' white space removed. */
  function Trim(s: string): (r: string)
    ensures Trimmed(r) && |r| <= |s|
  {
    TrimEnd(TrimStart(s))
  }

  /** What `trim` removes is white space and nothing else: the result is the
      slice of the input between a blank head and a blank tail. */
  lemma TrimIsSlice(s: string)
    ensures var r := Trim(s);
            exists k :: 0 <= k <= |s| - |r| && s[k..k + |r|] == r
                        && AllSpace(s[..k]) && AllSpace(s[k + |r|..])
  {
    var t := TrimStart(s);
    var r := TrimEnd(t);
    var k := |s| - |t|;
    assert t == s[k..];
    assert s[k..k + |r|] == r;
    assert s[k + |r|..] == t[|r|..];
  }

  lemma {:induction false} TrimStartOfNonSpace(s: string)
    requires s == [] || !IsSpace(s[0])
    ensures TrimStart(s) == s
  {
  }

  lemma {:induction false} TrimEndOfNonSpace(s: string)
    requires s == [] || !IsSpace(s[|s| - 1])
    ensures TrimEnd(s) == s
  {
  }

  /** A string without white space at its ends is its own trim; in particular
      `trim` is idempotent. */
  lemma TrimOfTrimmed(s: string)
    requires Trimmed(s)
    ensures Trim(s) == s
  {
    TrimStartOfNonSpace(s);
    TrimEndOfNonSpace(s);
  }

  lemma TrimIdempotent(s: string)
    ensures Trim(Trim(s)) == Trim(s)
  {
    TrimOfTrimmed(Trim(s));
  }

  /** `!s.trim()` holds exactly for the strings made only of white space. */
  lemma {:induction false} TrimEmptyIffBlank(s: string)
    ensures Trim(s) == [] <==> AllSpace(s)
  {
    TrimIsSlice(s);
    if Trim(s) == [] {
      var k :| 0 <= k <= |s| && AllSpace(s[..k]) && AllSpace(s[k..]);
      assert s == s[..k] + s[k..];
    }
  }

  /** The lower-case letters in alphabetical order. */
  const LowerAlphabet: string := "abcdefghijklmnopqrstuvwxyz"

  /** `toLowerCase` on one character; only the ASCII capitals are mapped, each
      to the letter at its place in the alphabet. */
  function LowerChar(c: char): (d: char)
    ensures 'A' <= c <= 'Z' ==> d == LowerAlphabet[c as int - 'A' as int]
    ensures !('A' <= c <= 'Z') ==> d == c
  {
    if 'A' <= c <= 'Z' then (c as int + 32) as char else c
  }

  predicate IsLower(s: string) {
    forall i :: 0 <= i < |s| ==> !('A' <= s[i] <= 'Z')
  }

  function ToLower(s: string): (r: string)
    ensures |r| == |s| && IsLower(r)
    ensures forall i {:trigger r[i]} :: 0 <= i < |s| ==> (r[i] == s[i] <==> !('A' <= s[i] <= 'Z'))
    ensures forall i {:trigger r[i]} :: 0 <= i < |s| ==> (IsSpace(r[i]) <==> IsSpace(s[i]))
    ensures forall i {:trigger r[i]} :: 0 <= i < |s| && 'A' <= s[i] <= 'Z' ==>
              r[i] == LowerAlphabet[s[i] as int - 'A' as int]
  {
    seq(|s|, i requires 0 <= i < |s| => LowerChar(s[i]))
  }

  lemma ToLowerOfLower(s: string)
    requires IsLower(s)
    ensures ToLower(s) == s
  {
  }

  lemma ToLowerIdempotent(s: string)
    ensures ToLower(ToLower(s)) == ToLower(s)
  {
    ToLowerOfLower(ToLower(s));
  }

  /** Lower-casing does not create or remove white space, so it commutes with
      trimming: `s.toLowerCase().trim() == s.trim().toLowerCase()`. */
  lemma {:induction false} LowerTrimCommute(s: string)
    ensures Trim(ToLower(s)) == ToLower(Trim(s))
  {
    TrimStartLower(s);
    TrimEndLower(TrimStart(s));
  }

  /** The leading white-space count is pinned down by its contract. */
  lemma LeadingSpacesUnique(s: string, n: nat)
    requires n <= |s| && (forall i :: 0 <= i < n ==> IsSpace(s[i]))
    requires n < |s| ==> !IsSpace(s[n])
    ensures LeadingSpaces(s) == n
  {
  }

  lemma TrailingSpacesUnique(s: string, n: nat)
    requires n <= |s| && (forall i :: |s| - n <= i < |s| ==> IsSpace(s[i]))
    requires n < |s| ==> !IsSpace(s[|s| - 1 - n])
    ensures TrailingSpaces(s) == n
  {
  }

  lemma TrimStartLower(s: string)
    ensures TrimStart(ToLower(s)) == ToLower(TrimStart(s))
  {
    var n, t := LeadingSpaces(s), ToLower(s);
    assert forall i :: 0 <= i < n ==> IsSpace(t[i]);
    assert n < |t| ==> !IsSpace(t[n]);
    LeadingSpacesUnique(t, n);
    assert t[n..] == ToLower(s[n..]);
  }

  lemma TrimEndLower(s: string)
    ensures TrimEnd(ToLower(s)) == ToLower(TrimEnd(s))
  {
    var n, t := TrailingSpaces(s), ToLower(s);
    assert forall i :: |t| - n <= i < |t| ==> IsSpace(t[i]);
    assert n < |t| ==> !IsSpace(t[|t| - 1 - n]);
    TrailingSpacesUnique(t, n);
    assert t[..|s| - n] == ToLower(s[..|s| - n]);
  }

  /** `s` contains none of the separators. */
  predicate NoSeps(s: string, seps: set<char>) {
    forall j :: 0 <= j < |s| ==> s[j] !in seps
  }

  /** `String.prototype.split` on a set of one-character separators (the regular
      expression `/[,，]/`, or the string `'\n'`): the pieces between the
      separators, in order, including empty ones. */
  function Split(s: string, seps: set<char>): (parts: seq<string>)
    ensures |parts| >= 1
    ensures forall i :: 0 <= i < |parts| ==> NoSeps(parts[i], seps)
    decreases |s|
  {
    if |s| == 0 then [""]
    else if s[0] in seps then [""] + Split(s[1..], seps)
    else
      var rest := Split(s[1..], seps);
      var parts := [[s[0]] + rest[0]] + rest[1..];
      assert forall i :: 1 <= i < |parts| ==> parts[i] == rest[i];
      parts
  }

  /** `parts.join(sep)`. */
  function Join(parts: seq<string>, sep: char): (s: string)
    requires |parts| >= 1
    decreases |parts|
  {
    if |parts| == 1 then parts[0] else parts[0] + [sep] + Join(parts[1..], sep)
  }

  /** Splitting on a single separator and joining back with it gives the input. */
  lemma {:induction false} JoinSplit(s: string, sep: char)
    ensures Join(Split(s, {sep}), sep) == s
    decreases |s|
  {
    if |s| > 0 {
      JoinSplit(s[1..], sep);
      if s[0] != sep {
        var rest := Split(s[1..], {sep});
        if |rest| > 1 {
          assert Join(rest, sep) == rest[0] + [sep] + Join(rest[1..], sep);
          assert ([[s[0]] + rest[0]] + rest[1..])[1..] == rest[1..];
        }
      }
    }
  }

  /** `s` with every separator replaced by `sep`: what splitting on several
      separators and joining with one of them leaves. */
  function Unify(s: string, seps: set<char>, sep: char): (r: string)
    ensures |r| == |s|
    ensures forall i :: 0 <= i < |s| ==> r[i] == if s[i] in seps then sep else s[i]
  {
    seq(|s|, i requires 0 <= i < |s| => if s[i] in seps then sep else s[i])
  }

  /** `Unify` works character by character. */
  lemma UnifyCons(s: string, seps: set<char>, sep: char)
    requires |s| > 0
    ensures Unify(s, seps, sep) == [if s[0] in seps then sep else s[0]] + Unify(s[1..], seps, sep)
  {
  }

  /** Splitting on a set of separators and joining back with one of them gives
      the input with every separator replaced by that one, so every character
      between the separators lands in a piece, in order. */
  lemma {:induction false} JoinSplitUnify(s: string, seps: set<char>, sep: char)
    requires sep in seps
    ensures Join(Split(s, seps), sep) == Unify(s, seps, sep)
    decreases |s|
  {
    if |s| > 0 {
      JoinSplitUnify(s[1..], seps, sep);
      UnifyCons(s, seps, sep);
      var rest := Split(s[1..], seps);
      if s[0] in seps {
        assert Split(s, seps) == [""] + rest;
        assert ([""] + rest)[1..] == rest;
      } else if |rest| > 1 {
        assert Join(rest, sep) == rest[0] + [sep] + Join(rest[1..], sep);
        assert ([[s[0]] + rest[0]] + rest[1..])[1..] == rest[1..];
      }
    }
  }

  /** One step of `Split` on a string with a known first character. */
  lemma SplitCons(c: char, t: string, seps: set<char>)
    ensures c in seps ==> Split([c] + t, seps) == [""] + Split(t, seps)
    ensures c !in seps ==> Split([c] + t, seps) == [[c] + Split(t, seps)[0]] + Split(t, seps)[1..]
  {
    assert ([c] + t)[0] == c && ([c] + t)[1..] == t;
  }

  /** Conversely, pieces free of every separator are recovered by splitting
      their join on any separator set that contains the joining one. */
  lemma {:induction false} SplitJoin(parts: seq<string>, sep: char, seps: set<char>)
    requires |parts| >= 1 && sep in seps
    requires forall i :: 0 <= i < |parts| ==> NoSeps(parts[i], seps)
    ensures Split(Join(parts, sep), seps) == parts
    decreases |parts|, |parts[0]|
  {
    var head := parts[0];
    if |head| == 0 {
      if |parts| > 1 {
        var tail := Join(parts[1..], sep);
        JoinEmptyHead(parts, sep);
        assert forall i :: 0 <= i < |parts| - 1 ==> parts[1..][i] == parts[i + 1];
        SplitJoin(parts[1..], sep, seps);
        SplitCons(sep, tail, seps);
      }
    } else {
      var shorter := [head[1..]] + parts[1..];
      assert head[0] !in seps;
      assert forall i :: 1 <= i < |parts| ==> shorter[i] == parts[i];
      assert NoSeps(shorter[0], seps);
      SplitJoin(shorter, sep, seps);
      var j := Join(shorter, sep);
      JoinFirstChar(parts, sep);
      SplitCons(head[0], j, seps);
      assert shorter[1..] == parts[1..];
      assert head == [head[0]] + head[1..];
      assert parts == [head] + parts[1..];
    }
  }

  /** A join that starts with an empty piece starts with the separator. */
  lemma JoinEmptyHead(parts: seq<string>, sep: char)
    requires |parts| > 1 && parts[0] == []
    ensures Join(parts, sep) == [sep] + Join(parts[1..], sep)
  {
  }

  /** A join that starts with a non-empty piece starts with its first character. */
  lemma JoinFirstChar(parts: seq<string>, sep: char)
    requires |parts| >= 1 && |parts[0]| > 0
    ensures Join(parts, sep) == [parts[0][0]] + Join([parts[0][1..]] + parts[1..], sep)
  {
    var shorter := [parts[0][1..]] + parts[1..];
    assert parts[0] == [parts[0][0]] + parts[0][1..];
    assert shorter[1..] == parts[1..];
  }

  /** `s.indexOf(c)`: the first position of `c`, or -1. */
  function IndexOf(s: string, c: char): (r: int)
    ensures -1 <= r < |s|
    ensures r == -1 <==> c !in s
    ensures r >= 0 ==> s[r] == c && c !in s[..r]
  {
    if |s| == 0 then -1
    else if s[0] == c then 0
    else
      var k := IndexOf(s[1..], c);
      assert s == [s[0]] + s[1..];
      if k == -1 then -1
      else
        assert s[..k + 1] == [s[0]] + s[1..][..k];
        k + 1
  }

  /** `indexOf` is pinned down by its contract: a position holding `c` with
      no earlier `c` is the one it returns. */
  lemma IndexOfAt(s: string, c: char, k: nat)
    requires k < |s| && s[k] == c && c !in s[..k]
    ensures IndexOf(s, c) == k
  {
    assert s[k] in s;
  }

  /** `trim` keeps only characters of its input. */
  lemma TrimChars(s: string)
    ensures forall j :: 0 <= j < |Trim(s)| ==> Trim(s)[j] in s
  {
    var t := TrimStart(s);
    var r := TrimEnd(t);
    forall j | 0 <= j < |r|
      ensures r[j] in s
    {
      assert r[j] == t[j] == s[|s| - |t| + j];
    }
  }

  /** A join of non-empty pieces starts with the first piece's first
      character and ends with the last piece's last character. */
  lemma {:induction false} JoinEnds(parts: seq<string>, sep: char)
    requires |parts| >= 1 && forall i :: 0 <= i < |parts| ==> parts[i] != []
    ensures var j := Join(parts, sep);
            && |j| > 0 && j[0] == parts[0][0]
            && j[|j| - 1] == parts[|parts| - 1][|parts[|parts| - 1]| - 1]
    decreases |parts|
  {
    if |parts| > 1 {
      JoinEnds(parts[1..], sep);
    }
  }
}


=== FILE: ui.dfy ===
/**
 The decisions `UIController` takes between the page and the model: the
 keystroke and submit handlers of the drill, the add-word form, and the
 statistics totals. What a handler leaves for a timer to do is returned as
 a follow-up instead of being run.
 */
module Ui {
  import opened Vocab
  import opened Text
  import opened Storage
  import opened Practice

  /** What a handler leaves behind: nothing, a delayed submit (after a
      completed word), a delayed clearing of the input that also releases the
      error latch, an aborted handler (the source dereferences a record that
      is no longer stored), the next word after a correct answer, the answer
      shown before moving on, or a cleared input to try again. */
  datatype Followup = Idle | SubmitSoon | ClearSoon | Thrown | NextWordSoon | RevealThenNext(answer: string) | Retry

  datatype Step = Step(words: seq<Word>, session: Session, followup: Followup)

  /** The penalty for a misspelling: the stored record of the current word
      takes one erroneous practice, the session one more consecutive error,
      and the latch closes. The source throws when the record is gone. */
  function Penalise(words: seq<Word>, s: Session, now: Timestamp): (r: Step)
    requires s.currentWord.Some?
    ensures r.followup == Thrown <==> GetWordById(words, s.currentWord.value.id).None?
    ensures r.followup == Thrown ==> r.words == words && r.session == s
    ensures r.followup != Thrown ==>
              var i := FindIndex(words, s.currentWord.value.id).value;
              && r.followup == ClearSoon
              && |r.words| == |words|
              && Practised(words[i], r.words[i], false, now)
              && (forall j :: 0 <= j < |words| && j != i ==> r.words[j] == words[j])
              && r.session == s.(consecutiveErrors := s.consecutiveErrors + 1, errorRecorded := true)
  {
    match GetWordById(words, s.currentWord.value.id)
    case None => Step(words, s, Thrown)
    case Some(w) =>
      MergeWhole(w, Score(w, false, now));
      Step(UpdateWord(words, w.id, Whole(Score(w, false, now))).words,
           s.(consecutiveErrors := s.consecutiveErrors + 1, errorRecorded := true),
           ClearSoon)
  }

  /** `UIController.handleInput`: a finished word schedules a submit, a word
      still on track does nothing, and a misspelling is penalised unless the
      latch is already closed, then schedules clearing. */
  function HandleInput(words: seq<Word>, s: Session, input: string, now: Timestamp): (r: Step)
    requires s.currentWord.Some?
    ensures r.followup == SubmitSoon <==> ValidateInput(s, input).isComplete
    ensures r.followup == Idle <==> ValidateInput(s, input).isCorrect && !ValidateInput(s, input).isComplete
    ensures ValidateInput(s, input).isCorrect ==> r.words == words && r.session == s
    ensures !ValidateInput(s, input).isCorrect ==>
              r == if s.errorRecorded then Step(words, s, ClearSoon) else Penalise(words, s, now)
  {
    var v := ValidateInput(s, input);
    if v.isComplete && v.isCorrect then Step(words, s, SubmitSoon)
    else if !v.isCorrect && |input| > 0 then
      if s.errorRecorded then Step(words, s, ClearSoon) else Penalise(words, s, now)
    else
      assert v.isCorrect by {
        if !v.isCorrect { WrongInputIsNonEmpty(s, input); }
      }
      Step(words, s, Idle)
  }

  /** The timer `handleInput` sets after a misspelling: the input is cleared
      and the latch released, so that the next mistake counts again. */
  function ReleaseLatch(s: Session): (r: Session)
    ensures !r.errorRecorded
    ensures r.(errorRecorded := s.errorRecorded) == s
  {
    s.(errorRecorded := false)
  }

  /** The handler's `input.length > 0` test never decides anything: a wrong
      input is never empty. */
  lemma WrongInputIsNonEmpty(s: Session, input: string)
    requires s.currentWord.Some?
    requires !ValidateInput(s, input).isCorrect
    ensures |input| > 0
  {
    if |input| == 0 {
      assert AllSpace(input);
      BlankInputIsOnTrack(s, input);
    }
  }

  /** The latch: once a misspelling has been penalised, further wrong input
      events before the latch is released change nothing, so one mistake costs
      exactly one penalty however many events it produces. */
  lemma LatchPenalisesOnce(words: seq<Word>, s: Session, first: string, second: string, t1: Timestamp, t2: Timestamp)
    requires s.currentWord.Some? && !s.errorRecorded
    requires GetWordById(words, s.currentWord.value.id).Some?
    requires !(Typed(first) <= ToLower(s.currentWord.value.word))
    requires !(Typed(second) <= ToLower(s.currentWord.value.word))
    ensures var r1 := HandleInput(words, s, first, t1);
            var r2 := HandleInput(r1.words, r1.session, second, t2);
            var i := FindIndex(words, s.currentWord.value.id).value;
            && r2.words == r1.words && r2.session == r1.session
            && r2.words[i].stats.practiceCount == words[i].stats.practiceCount + 1
            && r2.words[i].stats.errorCount == words[i].stats.errorCount + 1
            && r2.words[i].proficiency == words[i].proficiency - 1
            && r2.session.consecutiveErrors == s.consecutiveErrors + 1
  {
    var r1 := HandleInput(words, s, first, t1);
    assert r1 == Penalise(words, s, t1);
  }

  /** A penalty keeps `practiceCount == correctCount + errorCount`. */
  lemma PenaliseKeepsConsistent(words: seq<Word>, s: Session, now: Timestamp)
    requires s.currentWord.Some? && AllConsistent(words)
    ensures AllConsistent(Penalise(words, s, now).words)
  {
    var r := Penalise(words, s, now);
    if r.followup != Thrown {
      var i := FindIndex(words, s.currentWord.value.id).value;
      assert Consistent(words[i].stats);
    }
  }

  /** Every keystroke keeps the counter invariant. */
  lemma InputKeepsConsistent(words: seq<Word>, s: Session, input: string, now: Timestamp)
    requires s.currentWord.Some? && AllConsistent(words)
    ensures AllConsistent(HandleInput(words, s, input, now).words)
  {
    if !ValidateInput(s, input).isCorrect && !s.errorRecorded {
      PenaliseKeepsConsistent(words, s, now);
    }
  }

  /** `UIController.handleSubmit`: blank input does nothing; otherwise the
      answer is scored, and a wrong answer at the threshold shows the answer
      and clears the consecutive-error count before moving on. */
  function HandleSubmit(words: seq<Word>, s: Session, input: string, now: Timestamp): (r: Step)
    requires !AllSpace(input) ==> s.currentWord.Some?
    ensures AllSpace(input) ==> r == Step(words, s, Idle)
    ensures !AllSpace(input) && GetWordById(words, s.currentWord.value.id).None? ==> r == Step(words, s, Thrown)
    ensures !AllSpace(input) && GetWordById(words, s.currentWord.value.id).Some? ==>
              var i := FindIndex(words, s.currentWord.value.id).value;
              var correct := Typed(input) == ToLower(s.currentWord.value.word);
              && |r.words| == |words|
              && Practised(words[i], r.words[i], correct, now)
              && (forall j :: 0 <= j < |words| && j != i ==> r.words[j] == words[j])
              && (correct ==> r.followup == NextWordSoon && r.session == s.(consecutiveErrors := 0))
              && (!correct && s.consecutiveErrors + 1 >= RevealThreshold ==>
                    r.followup == RevealThenNext(ToLower(s.currentWord.value.word))
                    && r.session == s.(consecutiveErrors := 0))
              && (!correct && s.consecutiveErrors + 1 < RevealThreshold ==>
                    r.followup == Retry && r.session == s.(consecutiveErrors := s.consecutiveErrors + 1))
  {
    TrimEmptyIffBlank(input);
    if Trim(input) == [] then Step(words, s, Idle)
    else match SubmitAnswer(words, s, input, now)
      case Missing => Step(words, s, Thrown)
      case Submitted(saved, next, answer) =>
        if answer.isCorrect then Step(saved, next, NextWordSoon)
        else if answer.shouldShowAnswer then Step(saved, ResetErrors(next), RevealThenNext(answer.correctWord))
        else Step(saved, next, Retry)
  }

  /** The reveal scenario: at four consecutive errors, one more wrong answer
      shows the answer, commits exactly one practice and one error, and leaves
      the count at zero. */
  lemma RevealAfterFifthError(words: seq<Word>, s: Session, input: string, now: Timestamp)
    requires s.currentWord.Some? && s.consecutiveErrors == 4
    requires GetWordById(words, s.currentWord.value.id).Some?
    requires !AllSpace(input) && Typed(input) != ToLower(s.currentWord.value.word)
    ensures var r := HandleSubmit(words, s, input, now);
            var i := FindIndex(words, s.currentWord.value.id).value;
            && r.followup.RevealThenNext?
            && r.session.consecutiveErrors == 0
            && r.words[i].stats.practiceCount == words[i].stats.practiceCount + 1
            && r.words[i].stats.errorCount == words[i].stats.errorCount + 1
  {
  }

  /** A submission keeps `practiceCount == correctCount + errorCount`. */
  lemma SubmitStepKeepsConsistent(words: seq<Word>, s: Session, input: string, now: Timestamp)
    requires s.currentWord.Some? && AllConsistent(words)
    ensures AllConsistent(HandleSubmit(words, s, input, now).words)
  {
    SubmitKeepsConsistent(words, s, input, now);
  }

  // ---------------------------------------------------------------- add form

  /** The separators of a meaning list: `/[,，]/` (ASCII and full-width comma). */
  const MeaningSeparators: set<char> := {',', '\U{FF0C}'}

  /** `parts.filter(m => m.trim())`: the non-blank parts, kept as they are. */
  function NonBlank(parts: seq<string>): (r: seq<string>)
    ensures |r| <= |parts|
  {
    if |parts| == 0 then []
    else (if Trim(parts[0]) != [] then [parts[0]] else []) + NonBlank(parts[1..])
  }

  /** One step of the filter: the first piece, if it is not blank, then the
      filtered rest. */
  lemma NonBlankStep(parts: seq<string>)
    requires |parts| > 0
    ensures NonBlank(parts) == (if Trim(parts[0]) != [] then [parts[0]] else []) + NonBlank(parts[1..])
  {
  }

  /** A piece is kept exactly when it is in the input and is not blank. */
  lemma {:induction false} NonBlankMembers(parts: seq<string>)
    ensures forall m :: m in NonBlank(parts) <==> m in parts && Trim(m) != []
    decreases |parts|
  {
    if |parts| > 0 {
      NonBlankMembers(parts[1..]);
      HeadRest(parts);
    }
  }

  /** The filter works piece by piece, so the kept pieces stay in their
      order: filtering a concatenation concatenates the filtered halves. */
  lemma {:induction false} NonBlankAppend(a: seq<string>, b: seq<string>)
    ensures NonBlank(a + b) == NonBlank(a) + NonBlank(b)
    decreases |a|
  {
    if |a| > 0 {
      var head := if Trim(a[0]) != [] then [a[0]] else [];
      ConcatRest(a, b);
      NonBlankStep(a + b);
      NonBlankStep(a);
      NonBlankAppend(a[1..], b);
      ConcatAssoc(head, NonBlank(a[1..]), NonBlank(b));
    } else {
      assert a + b == b;
    }
  }

  /** The first record spelled like `word`, ignoring case:
      `find(w => w.word.toLowerCase() === word.toLowerCase())`. */
  function FindSpelling(words: seq<Word>, word: string): (r: Option<nat>)
    ensures r.Some? ==> r.value < |words| && ToLower(words[r.value].word) == ToLower(word)
    ensures r.Some? ==> forall j :: 0 <= j < r.value ==> ToLower(words[j].word) != ToLower(word)
    ensures r.None? <==> forall j :: 0 <= j < |words| ==> ToLower(words[j].word) != ToLower(word)
  {
    if |words| == 0 then None
    else if ToLower(words[0].word) == ToLower(word) then Some(0)
    else match FindSpelling(words[1..], word)
      case None => None
      case Some(k) => Some(k + 1)
  }

  /** The duplicate policy of both the form and the bulk import: the existing
      record restarts at proficiency -100 with the new meanings, keeping its
      id, spelling, creation time and statistics; it is saved by id. Saving by
      id writes over the first record carrying that id, which is the
      duplicate itself when ids are unique. */
  function Reset(words: seq<Word>, i: nat, meanings: seq<string>): (r: seq<Word>)
    requires i < |words|
    ensures |r| == |words|
    ensures var k := FindIndex(words, words[i].id).value;
            && k <= i
            && r == words[k := words[i].(proficiency := -100, meanings := meanings)]
    ensures IdsUnique(words) ==> r == words[i := words[i].(proficiency := -100, meanings := meanings)]
  {
    var n := words[i].(proficiency := InitialProficiency, meanings := meanings);
    var k := FindIndex(words, n.id).value;
    MergeWhole(words[k], n);
    assert IdsUnique(words) ==> k == i by {
      if IdsUnique(words) {
        FindIndexUnique(words, i);
      }
    }
    UpdateWord(words, n.id, Whole(n)).words
  }

  /** With unique ids, the reset touches the duplicate only. */
  lemma ResetInPlace(words: seq<Word>, i: nat, meanings: seq<string>)
    requires i < |words| && IdsUnique(words)
    ensures var r := Reset(words, i, meanings);
            && r[i] == words[i].(proficiency := -100, meanings := meanings)
            && (forall j :: 0 <= j < |words| && j != i ==> r[j] == words[j])
            && IdsUnique(r)
  {
    var e := words[i];
    FindIndexUnique(words, i);
    MergeWhole(e, e.(proficiency := InitialProficiency, meanings := meanings));
  }

  datatype AddStatus = MissingInput | NoMeanings | Declined | ResetDone | Created

  datatype AddResult = AddResult(words: seq<Word>, status: AddStatus)

  /** `UIController.addWord` as written: the duplicate's new meanings are the
      non-blank pieces, untrimmed. `confirmed` is the answer to `confirm`; the
      id and time are the clock readings of a fresh record. */
  function AddWordForm(words: seq<Word>, wordField: string, meaningsField: string, confirmed: bool,
                       id: string, now: Timestamp): (r: AddResult)
    ensures r.status == Created ==>
              forall j :: 0 <= j < |words| ==> ToLower(words[j].word) != ToLower(Trim(wordField))
    ensures r.status == ResetDone ==>
              && FindSpelling(words, Trim(wordField)).Some?
              && var i := FindSpelling(words, Trim(wordField)).value;
              && i < |r.words|
              && (IdsUnique(words) ==> r.words[i].meanings == NonBlank(Split(Trim(meaningsField), MeaningSeparators)))
  {
    AsWrittenOutcome(words, wordField, meaningsField, confirmed, id, now);
    AddWordWith(words, wordField, meaningsField, confirmed, id, now, false)
  }

  /** `AddWordOutcome` and `AddWordResets` for the form as written. */
  lemma AsWrittenOutcome(words: seq<Word>, wordField: string, meaningsField: string, confirmed: bool,
                         id: string, now: Timestamp)
    ensures var r := AddWordWith(words, wordField, meaningsField, confirmed, id, now, false);
            && (r.status == Created ==>
                  forall j :: 0 <= j < |words| ==> ToLower(words[j].word) != ToLower(Trim(wordField)))
            && (r.status == ResetDone ==>
                  && FindSpelling(words, Trim(wordField)).Some?
                  && var i := FindSpelling(words, Trim(wordField)).value;
                  && i < |r.words|
                  && (IdsUnique(words) ==>
                        r.words[i].meanings == NonBlank(Split(Trim(meaningsField), MeaningSeparators))))
  {
    AddWordOutcome(words, wordField, meaningsField, confirmed, id, now, false);
    AddWordResets(words, wordField, meaningsField, confirmed, id, now, false);
  }

  /** The form with the duplicate's meanings trimmed as on every other path. */
  function AddWordFormTrimmed(words: seq<Word>, wordField: string, meaningsField: string, confirmed: bool,
                              id: string, now: Timestamp): (r: AddResult)
    ensures r.status == Created ==>
              forall j :: 0 <= j < |words| ==> ToLower(words[j].word) != ToLower(Trim(wordField))
    ensures r.status == ResetDone ==>
              && FindSpelling(words, Trim(wordField)).Some?
              && var i := FindSpelling(words, Trim(wordField)).value;
              && i < |r.words|
              && (IdsUnique(words) ==>
                    r.words[i].meanings == TrimAll(NonBlank(Split(Trim(meaningsField), MeaningSeparators))))
  {
    FixedOutcome(words, wordField, meaningsField, confirmed, id, now);
    AddWordWith(words, wordField, meaningsField, confirmed, id, now, true)
  }

  /** `AddWordOutcome` and `AddWordResets` for the corrected form. */
  lemma FixedOutcome(words: seq<Word>, wordField: string, meaningsField: string, confirmed: bool,
                     id: string, now: Timestamp)
    ensures var r := AddWordWith(words, wordField, meaningsField, confirmed, id, now, true);
            && (r.status == Created ==>
                  forall j :: 0 <= j < |words| ==> ToLower(words[j].word) != ToLower(Trim(wordField)))
            && (r.status == ResetDone ==>
                  && FindSpelling(words, Trim(wordField)).Some?
                  && var i := FindSpelling(words, Trim(wordField)).value;
                  && i < |r.words|
                  && (IdsUnique(words) ==>
                        r.words[i].meanings == TrimAll(NonBlank(Split(Trim(meaningsField), MeaningSeparators)))))
  {
    AddWordOutcome(words, wordField, meaningsField, confirmed, id, now, true);
    AddWordResets(words, wordField, meaningsField, confirmed, id, now, true);
  }

  /** What the two form fields hold once read. */
  datatype FormInput = Incomplete | NoValidMeaning | Filled(word: string, meanings: seq<string>)

  /** The checks `addWord` makes before touching the list: both fields
      non-blank after trimming, and at least one non-blank meaning between the
      commas. */
  function ReadForm(wordField: string, meaningsField: string): (f: FormInput)
    ensures f.Incomplete? <==> Trim(wordField) == [] || Trim(meaningsField) == []
    ensures f.Filled? ==> f.word == Trim(wordField) && f.word != [] && f.meanings != []
    ensures f.Filled? ==> f.meanings == NonBlank(Split(Trim(meaningsField), MeaningSeparators))
    ensures f.NoValidMeaning? ==> NonBlank(Split(Trim(meaningsField), MeaningSeparators)) == []
  {
    var word := Trim(wordField);
    var text := Trim(meaningsField);
    if word == [] || text == [] then Incomplete
    else
      var meanings := NonBlank(Split(text, MeaningSeparators));
      if meanings == [] then NoValidMeaning else Filled(word, meanings)
  }

  /** The form's logic, with the one point where the two versions differ
      as a flag. The list grows by one record exactly when a record is
      created. */
  function AddWordWith(words: seq<Word>, wordField: string, meaningsField: string, confirmed: bool,
                       id: string, now: Timestamp, trimOnReset: bool): (r: AddResult)
    ensures |r.words| == if r.status == Created then |words| + 1 else |words|
  {
    match ReadForm(wordField, meaningsField)
    case Incomplete => AddResult(words, MissingInput)
    case NoValidMeaning => AddResult(words, NoMeanings)
    case Filled(word, meanings) =>
      match FindSpelling(words, word)
      case Some(i) =>
        if confirmed then
          AddResult(Reset(words, i, if trimOnReset then TrimAll(meanings) else meanings), ResetDone)
        else AddResult(words, Declined)
      case None => AddResult(Storage.AddWord(words, word, meanings, id, now).words, Created)
  }

  /** Which way the form goes: a blank field, then a meaning list with
      nothing in it, alert and change nothing; a spelling no record has,
      ignoring case, is created; a stored one is reset when confirmed and
      otherwise left alone. */
  lemma AddWordOutcome(words: seq<Word>, wordField: string, meaningsField: string, confirmed: bool,
                       id: string, now: Timestamp, trimOnReset: bool)
    ensures var r := AddWordWith(words, wordField, meaningsField, confirmed, id, now, trimOnReset);
            var word := Trim(wordField);
            var meanings := NonBlank(Split(Trim(meaningsField), MeaningSeparators));
            var filled := word != [] && Trim(meaningsField) != [] && meanings != [];
            var known := FindSpelling(words, word).Some?;
            && (r.status == MissingInput <==> word == [] || Trim(meaningsField) == [])
            && (r.status == NoMeanings <==> word != [] && Trim(meaningsField) != [] && meanings == [])
            && (r.status == Created <==>
                  filled && forall j :: 0 <= j < |words| ==> ToLower(words[j].word) != ToLower(word))
            && (r.status == ResetDone <==> filled && known && confirmed)
            && (r.status == Declined <==> filled && known && !confirmed)
            && (r.status != Created && r.status != ResetDone ==> r.words == words)
  {
    var word := Trim(wordField);
    var f := ReadForm(wordField, meaningsField);
    if f.Filled? {
      var found := FindSpelling(words, word);
      if found.Some? {
        assert ToLower(words[found.value].word) == ToLower(word);
      }
    }
  }

  /** A created record is appended after all the others: it carries the
      given id and time, the spelling lower-cased, the meanings trimmed,
      proficiency -100 and zeroed counters. */
  lemma AddWordCreates(words: seq<Word>, wordField: string, meaningsField: string, confirmed: bool,
                       id: string, now: Timestamp, trimOnReset: bool)
    ensures var r := AddWordWith(words, wordField, meaningsField, confirmed, id, now, trimOnReset);
            r.status == Created ==>
              && |r.words| == |words| + 1
              && var w := r.words[|words|];
              && r.words == words + [w]
              && w.id == id && w.addedTime == now && w.word == ToLower(Trim(wordField))
              && w.meanings == TrimAll(NonBlank(Split(Trim(meaningsField), MeaningSeparators)))
              && w.proficiency == -100 && w.stats == Stats(0, 0, 0, None)
  {
    var word := Trim(wordField);
    var f := ReadForm(wordField, meaningsField);
    if f.Filled? && FindSpelling(words, word).None? {
      AddWordSpelling(words, word, f.meanings, id, now);
      TrimOfTrimmed(word);
    }
  }

  /** A confirmed reset keeps the length, and with unique ids gives the first
      record spelled like the field proficiency -100 and the new meanings,
      touching nothing else. */
  lemma AddWordResets(words: seq<Word>, wordField: string, meaningsField: string, confirmed: bool,
                      id: string, now: Timestamp, trimOnReset: bool)
    ensures var r := AddWordWith(words, wordField, meaningsField, confirmed, id, now, trimOnReset);
            r.status == ResetDone ==>
              && FindSpelling(words, Trim(wordField)).Some?
              && var i := FindSpelling(words, Trim(wordField)).value;
              && var meanings := NonBlank(Split(Trim(meaningsField), MeaningSeparators));
              && |r.words| == |words|
              && (IdsUnique(words) ==>
                    r.words == words[i := words[i].(proficiency := -100,
                                                    meanings := if trimOnReset then TrimAll(meanings) else meanings)])
  {
  }

  /** The form never adds a second record for a spelling that is already
      stored, whatever the letter case. */
  lemma AddWordNoDuplicate(words: seq<Word>, wordField: string, meaningsField: string, confirmed: bool,
                           id: string, now: Timestamp, j: nat)
    requires j < |words| && ToLower(words[j].word) == ToLower(Trim(wordField))
    ensures |AddWordForm(words, wordField, meaningsField, confirmed, id, now).words| == |words|
    ensures AddWordForm(words, wordField, meaningsField, confirmed, id, now).status != Created
  {
  }

  /** The upsert keeps the duplicate's identity and history. */
  lemma AddWordUpsertKeepsHistory(words: seq<Word>, wordField: string, meaningsField: string,
                                  id: string, now: Timestamp)
    requires IdsUnique(words)
    requires AddWordForm(words, wordField, meaningsField, true, id, now).status == ResetDone
    ensures var i := FindSpelling(words, Trim(wordField)).value;
            var r := AddWordForm(words, wordField, meaningsField, true, id, now).words;
            && r[i].id == words[i].id && r[i].stats == words[i].stats && r[i].word == words[i].word
            && r[i].proficiency == -100
            && r[i].meanings == NonBlank(Split(Trim(meaningsField), MeaningSeparators))
            && (forall j :: 0 <= j < |words| && j != i ==> r[j] == words[j])
  {
    var i := FindSpelling(words, Trim(wordField)).value;
    var meanings := NonBlank(Split(Trim(meaningsField), MeaningSeparators));
    AsWrittenWrites(words, wordField, meaningsField, id, now);
    ResetInPlace(words, i, meanings);
  }

  /** A confirmed reset of the form as written is `Reset` at the found record. */
  lemma AsWrittenWrites(words: seq<Word>, wordField: string, meaningsField: string, id: string, now: Timestamp)
    ensures var r := AddWordForm(words, wordField, meaningsField, true, id, now);
            r.status == ResetDone ==>
              && FindSpelling(words, Trim(wordField)).Some?
              && r.words == Reset(words, FindSpelling(words, Trim(wordField)).value,
                                  NonBlank(Split(Trim(meaningsField), MeaningSeparators)))
  {
  }

  /** As written, a reset stores a meaning with the blank that followed its
      comma, while the same text on a new word is trimmed: `"red, fruit"`
      becomes `["red", " fruit"]` on a duplicate and `["red", "fruit"]`
      otherwise. */
  lemma AddWordResetKeepsPadding()
    ensures var stored := Word("1", "apple", ["x"], 3, "t0", Stats(0, 0, 0, None));
            var reset := AddWordForm([stored], "apple", "red, fruit", true, "2", "t1");
            var created := AddWordForm([], "apple", "red, fruit", true, "2", "t1");
            && reset.status == ResetDone && reset.words[0].meanings == ["red", " fruit"]
            && !Trimmed(reset.words[0].meanings[1])
            && created.status == Created && created.words[0].meanings == ["red", "fruit"]
  {
    ResetExample();
    CreateExample();
    PaddedExample();
  }

  lemma PaddedExample()
    ensures !Trimmed(" fruit")
  {
    assert " fruit"[0] == ' ';
  }

  lemma ResetExample()
    ensures var stored := Word("1", "apple", ["x"], 3, "t0", Stats(0, 0, 0, None));
            AddWordForm([stored], "apple", "red, fruit", true, "2", "t1") ==
            AddResult([stored.(proficiency := -100, meanings := ["red", " fruit"])], ResetDone)
  {
    var stored := Word("1", "apple", ["x"], 3, "t0", Stats(0, 0, 0, None));
    var ms := ["red", " fruit"];
    ReadExample();
    assert FindSpelling([stored], "apple") == Some(0);
    var reset := Reset([stored], 0, ms);
    ResetSingle(stored, ms);
    assert AddWordWith([stored], "apple", "red, fruit", true, "2", "t1", false) == AddResult(reset, ResetDone);
  }

  /** Resetting the only record of a list. */
  lemma ResetSingle(w: Word, meanings: seq<string>)
    ensures Reset([w], 0, meanings) == [w.(proficiency := -100, meanings := meanings)]
  {
    ResetInPlace([w], 0, meanings);
    var r := Reset([w], 0, meanings);
    assert |r| == 1 && r[0] == w.(proficiency := -100, meanings := meanings);
  }

  lemma CreateExample()
    ensures var created := AddWordForm([], "apple", "red, fruit", true, "2", "t1");
            created.status == Created && created.words[0].meanings == ["red", "fruit"]
  {
    CreateFormExample();
    var a := Storage.AddWord([], "apple", ["red", " fruit"], "2", "t1");
    assert a.words[0].meanings == TrimAll(["red", " fruit"]);
    TrimAllExample();
  }

  lemma CreateFormExample()
    ensures AddWordForm([], "apple", "red, fruit", true, "2", "t1") ==
            AddResult(Storage.AddWord([], "apple", ["red", " fruit"], "2", "t1").words, Created)
  {
    ReadExample();
  }

  lemma TrimAllExample()
    ensures TrimAll(["red", " fruit"]) == ["red", "fruit"]
  {
    TrimExample();
  }

  lemma TrimExample()
    ensures Trim("red") == "red" && Trim(" fruit") == "fruit"
  {
    TrimRedExample();
    TrimFruitExample();
  }

  lemma TrimRedExample()
    ensures Trim("red") == "red"
  {
    TrimOfTrimmed("red");
  }

  lemma TrimFruitExample()
    ensures Trim(" fruit") == "fruit"
  {
    assert LeadingSpaces(" fruit") == 1 by { LeadingSpacesUnique(" fruit", 1); }
    assert TrailingSpaces("fruit") == 0 by { TrailingSpacesUnique("fruit", 0); }
  }

  lemma ReadExample()
    ensures ReadForm("apple", "red, fruit") == Filled("apple", ["red", " fruit"])
  {
    FieldTrimExample();
    SplitExample();
    NonBlankExample();
  }

  lemma FieldTrimExample()
    ensures Trim("red, fruit") == "red, fruit" && Trim("apple") == "apple"
  {
    TrimOfTrimmed("red, fruit");
    TrimOfTrimmed("apple");
  }

  lemma SplitExample()
    ensures Split("red, fruit", MeaningSeparators) == ["red", " fruit"]
  {
    SplitJoin(["red", " fruit"], ',', MeaningSeparators);
    assert Join(["red", " fruit"], ',') == "red, fruit";
  }

  lemma NonBlankExample()
    ensures NonBlank(["red", " fruit"]) == ["red", " fruit"]
  {
    var parts := ["red", " fruit"];
    TrimExample();
    assert forall i :: 0 <= i < |parts| ==> Trim(parts[i]) != [];
    NonBlankKeepsAll(parts);
  }

  /** A list without blank pieces passes the filter whole. */
  lemma {:induction false} NonBlankKeepsAll(parts: seq<string>)
    requires forall i :: 0 <= i < |parts| ==> Trim(parts[i]) != []
    ensures NonBlank(parts) == parts
    decreases |parts|
  {
    if |parts| > 0 {
      var rest := parts[1..];
      assert forall i :: 0 <= i < |rest| ==> Trim(rest[i]) != [] by {
        forall i | 0 <= i < |rest|
          ensures Trim(rest[i]) != []
        {
          assert rest[i] == parts[i + 1];
        }
      }
      NonBlankKeepsAll(rest);
      NonBlankStep(parts);
      HeadRest(parts);
    }
  }

  /** With the fix, every meaning the form stores is trimmed, on both paths. */
  lemma AddWordTrimmedMeanings(words: seq<Word>, wordField: string, meaningsField: string, confirmed: bool,
                               id: string, now: Timestamp)
    requires IdsUnique(words)
    ensures var r := AddWordFormTrimmed(words, wordField, meaningsField, confirmed, id, now);
            && (r.status == Created ==>
                  forall k :: 0 <= k < |r.words[|words|].meanings| ==> Trimmed(r.words[|words|].meanings[k]))
            && (r.status == ResetDone ==>
                  var i := FindSpelling(words, Trim(wordField)).value;
                  forall k :: 0 <= k < |r.words[i].meanings| ==> Trimmed(r.words[i].meanings[k]))
  {
    var r := AddWordFormTrimmed(words, wordField, meaningsField, confirmed, id, now);
    if r.status == ResetDone {
      var i := FindSpelling(words, Trim(wordField)).value;
      ResetInPlace(words, i, TrimAll(NonBlank(Split(Trim(meaningsField), MeaningSeparators))));
    }
  }

  // ---------------------------------------------------------------- totals

  datatype Totals = Totals(words: nat, practice: nat, correct: nat, error: nat)

  /** The totals `updateStats` displays: the word count and the sums of the
      three counters over all records. */
  function UpdateStats(words: seq<Word>): (t: Totals)
    ensures t.words == |words|
  {
    if |words| == 0 then Totals(0, 0, 0, 0)
    else
      var rest := UpdateStats(words[1..]);
      Totals(|words|, rest.practice + words[0].stats.practiceCount,
             rest.correct + words[0].stats.correctCount, rest.error + words[0].stats.errorCount)
  }

  /** When every record keeps the counter invariant, so do the totals. */
  lemma {:induction false} TotalsBalance(words: seq<Word>)
    requires AllConsistent(words)
    ensures UpdateStats(words).practice == UpdateStats(words).correct + UpdateStats(words).error
    decreases |words|
  {
    if |words| > 0 {
      assert Consistent(words[0].stats);
      TotalsBalance(words[1..]);
    }
  }

  /** Replacing one record changes the totals by that record's difference. */
  lemma {:induction false} TotalsAfterReplace(words: seq<Word>, i: nat, w: Word)
    requires i < |words|
    ensures var before := UpdateStats(words);
            var after := UpdateStats(words[i := w]);
            && after.practice + words[i].stats.practiceCount == before.practice + w.stats.practiceCount
            && after.correct + words[i].stats.correctCount == before.correct + w.stats.correctCount
            && after.error + words[i].stats.errorCount == before.error + w.stats.errorCount
    decreases |words|
  {
    if i > 0 {
      TotalsAfterReplace(words[1..], i - 1, w);
      assert words[i := w][1..] == words[1..][i - 1 := w];
    } else {
      assert words[i := w][1..] == words[1..];
    }
  }

  /** Every scored submission adds exactly one to the displayed practice total. */
  lemma SubmitAddsOnePractice(words: seq<Word>, s: Session, input: string, now: Timestamp)
    requires s.currentWord.Some?
    requires SubmitAnswer(words, s, input, now).Submitted?
    ensures UpdateStats(SubmitAnswer(words, s, input, now).words).practice == UpdateStats(words).practice + 1
  {
    var r := SubmitAnswer(words, s, input, now);
    var i := FindIndex(words, s.currentWord.value.id).value;
    assert r.words == words[i := r.words[i]];
    TotalsAfterReplace(words, i, r.words[i]);
  }
}

=== FILE: vocab.dfy ===
/**
 The word record kept by the drill, and the shallow object merge
 (`{...old, ...updates}`) through which every stored record is changed.
 */
module Vocab {

  datatype Option<T> = None | Some(value: T)

  /** An ISO-8601 text from `Date.prototype.toISOString`; never inspected. */
  type Timestamp = string

  /** The per-word practice counters. */
  datatype Stats = Stats(
    practiceCount: nat,
    correctCount: nat,
    errorCount: nat,
    lastPracticeTime: Option<Timestamp>)

  /** One stored vocabulary entry. */
  datatype Word = Word(
    id: string,
    word: string,
    meanings: seq<string>,
    proficiency: int,
    addedTime: Timestamp,
    stats: Stats)

  /** Every practice is either a correct or an erroneous one. */
  predicate Consistent(st: Stats) {
    st.practiceCount == st.correctCount + st.errorCount
  }

  predicate AllConsistent(words: seq<Word>) {
    forall i :: 0 <= i < |words| ==> Consistent(words[i].stats)
  }

  /** The own properties of an `updates` object: a field that is present
      replaces the stored one wholesale (the merge is shallow, so `stats`
      is never merged field by field). */
  datatype Patch = Patch(
    id: Option<string>,
    word: Option<string>,
    meanings: Option<seq<string>>,
    proficiency: Option<int>,
    addedTime: Option<Timestamp>,
    stats: Option<Stats>)

  function Pick<T>(update: Option<T>, current: T): T {
    match update
    case Some(v) => v
    case None => current
  }

  /** `{...w, ...p}`: every property the update carries wins, every other
      one keeps its stored value. */
  function Merge(w: Word, p: Patch): (r: Word)
    ensures r.id == if p.id.Some? then p.id.value else w.id
    ensures r.word == if p.word.Some? then p.word.value else w.word
    ensures r.meanings == if p.meanings.Some? then p.meanings.value else w.meanings
    ensures r.proficiency == if p.proficiency.Some? then p.proficiency.value else w.proficiency
    ensures r.addedTime == if p.addedTime.Some? then p.addedTime.value else w.addedTime
    ensures r.stats == if p.stats.Some? then p.stats.value else w.stats
  {
    Word(
      Pick(p.id, w.id),
      Pick(p.word, w.word),
      Pick(p.meanings, w.meanings),
      Pick(p.proficiency, w.proficiency),
      Pick(p.addedTime, w.addedTime),
      Pick(p.stats, w.stats))
  }

  /** A whole record passed as its own update object, the way every caller
      in the drill passes one. */
  function Whole(w: Word): (p: Patch)
    ensures p.id.Some? && p.word.Some? && p.meanings.Some?
    ensures p.proficiency.Some? && p.addedTime.Some? && p.stats.Some?
  {
    Patch(Some(w.id), Some(w.word), Some(w.meanings), Some(w.proficiency), Some(w.addedTime), Some(w.stats))
  }

  /** Merging a whole record yields exactly that record, whatever was stored. */
  lemma MergeWhole(w: Word, n: Word)
    ensures Merge(w, Whole(n)) == n
  {
  }
}
